=== FILE: README.md ===
# AIRE underwriting engine in Dafny

This project models the deterministic core of the AIRE real-estate underwriting app (`app.py`),
and proves properties of that model. The core covers:

- the property record;
- the rate-environment weight tables;
- the kill switch, which is a hard stop on stressed debt coverage, rent regulation and stale listings;
- the seven clamped sub-scores;
- the four heuristic risk flags and their capped text-matched penalty;
- the weighted base score and the penalised final score;
- the A–F grade ladder with its verdicts;
- the strengths/risks narrative;
- the whole run composed in the order the analysis applies it;
- the address guess taken from a listing URL's path.

Modules follow the program's stages:

- `Property`: the record, the stressed DSCR (stressed income over debt service) and the gross yield.
- `Metrics`: the sub-scores.
- `Scoring`: weights, base and final scores.
- `Flags`: flags and penalty.
- `Gate`: kill switch and grade.
- `Narrative`: strengths and risks.
- `Pipeline`: one run, with two worked deals.
- `Address`: URL path to address, with a worked example in `AddressExamples`.
- `Arith`, `Seqs` and `Wrappers`: small shared helpers.

Money and ratios are `real`, so rounding is not modelled. Days on market is an `int`.

Facts about `app.py` that shape the model:

- The monthly loan payment is an input of the property record (app.py:81). No amortization is computed.
- The stress cuts rent by 20% and subtracts expenses (app.py:213-214). No vacancy factor enters it.
- The yield sub-score is the gross yield `12·rent / max(price, 1)` divided by 0.12 (app.py:232-233).
- There are four flags, in this order (app.py:241-251):
  1. overstated yield (gross yield > 0.14);
  2. optimistic vacancy (< 0.05);
  3. regulatory risk;
  4. understated expenses (expenses < 20% of rent).
- Text matching prices those flags at 0.05, 0.08, 0.20 and 0.06, capped at 0.35 (app.py:255-264).
- There are three strength rules (app.py:286-291):
  1. DSCR ≥ 1.25;
  2. replacement cost ≥ price;
  3. days on market ≤ 45.
- Both the strengths and the risks are cut to three entries (app.py:299).

## Model

| member | source | states |
|---|---|---|
| Property.StressedDscr | app.py:213-215 | The stressed DSCR times the debt service `max(loan, 1)` gives back the stressed monthly income, rent·0.80 − expenses. |
| Property.GrossYield | app.py:232 | The gross yield times `max(price, 1)` gives back twelve months of rent. |
| Property.CostRatio | app.py:230 | The cost ratio times `max(price, 1)` gives back the replacement cost. |
| Gate.KillSwitch | app.py:212-222 | A property is killed exactly when stressed income is below debt service, or rent regulation is possible, or it has been listed more than 180 days. |
| Pipeline.KillSwitchAgreesWithMetrics | app.py:212-227 | The kill switch's DSCR test and the DSCR reported with the metrics are the same quantity: killed iff that DSCR < 1, or regulation, or more than 180 days. |
| Metrics.CalculateMetrics | app.py:224-239 | All seven sub-scores are present. Every sub-score except liquidity lies in [0,1]. Each sub-score saturates exactly at its threshold: cash flow at DSCR 1.5, downside at replacement cost 1.2× price, yield at 12% gross yield. Each is zero exactly when its input is non-positive. Between zero and the threshold, downside times 1.2 is the cost ratio, and yield times 0.12 is the gross yield. Location equals the job-diversity index inside [0,1], is 1 from 1 up and 0 from 0 down. Up to 180 days, liquidity is 1 − days/180. It is zero exactly from 180 days, and at most 1 exactly when days are non-negative. Optionality is 0.60 and AI risk is 1.0. |
| Scoring.GetWeights | app.py:207-210 | The result is one of the two fixed tables. Both cover all seven metrics, are non-negative and sum to 1. |
| Scoring.HighRegimeSpellings | app.py:207-208 | The high-rate table is chosen exactly for the sixteen upper/lower-case spellings of "high". |
| Scoring.ScoreOfComplete | app.py:266-267 | On complete tables, the base score is 100 times the seven products of sub-score and weight. |
| Scoring.Score | app.py:266-267 | With sub-scores in [0,1] and non-negative weights, the base score lies between 0 and 100 times the total weight. With non-negative sub-scores it is non-negative. |
| Scoring.FinalScore | app.py:512 | The final score is never negative. A penalty in [0, 0.35] lowers a non-negative base score by at most 35% and never raises it. Any positive penalty strictly lowers a positive base score. A zero penalty leaves it unchanged, with negatives floored at 0. For a non-negative base and a penalty of at most 1, exactly the base times the penalty is removed. |
| Scoring.Discounted | app.py:512 | Exactly the base times the penalty is removed from the base score. A non-negative penalty never raises a non-negative base score, and a positive one strictly lowers a positive base. A penalty of at most 0.35 keeps 65% of it, and a zero penalty changes nothing. |
| Scoring.FinalScoreAntitone | app.py:512 | For a non-negative base score, a larger penalty never gives a higher final score. |
| Scoring.FinalScoreGap | app.py:512 | For a non-negative base score and penalties up to 1, raising the penalty lowers the final score by exactly the base times the rise. |
| Flags.AiFlags | app.py:241-251 | Each of the four flags is present exactly when its rule fires, and nothing else is produced. |
| Flags.AiFlagsFollowOrder | app.py:241-251 | The flags appear in rule order, with no repeats. |
| Flags.CategoryPenalty | app.py:255-263 | The keywords are tried in order and the first match decides: "Overstated" costs 0.05, then "Vacancy" 0.08, then "Regulatory" 0.20, then "Expenses" 0.06. A flag costs nothing exactly when it contains none of them. The result always lies in [0, 0.20]. |
| Flags.FlagCategories | app.py:243-263 | Each flag text falls into its own category: 0.05, 0.08, 0.20 and 0.06. |
| Flags.RawPenalty | app.py:254-263 | The uncapped sum is between 0 and 0.20 per flag. It is zero exactly when no flag carries a keyword. |
| Flags.RawPenaltyAppend | app.py:254-263 | The uncapped sum is additive over concatenation of flag lists. |
| Flags.AiPenalty | app.py:253-264 | The penalty lies in [0, 0.35] and never exceeds the uncapped sum. It equals that sum whenever the sum is within the cap, and equals 0.35 whenever the sum reaches it. It is zero exactly when no flag carries a keyword. |
| Flags.PenaltyIgnoresOrder | app.py:253-264 | Swapping two halves of a flag list leaves the penalty unchanged. |
| Flags.PenaltyOfAiFlags | app.py:241-264 | The text-matched penalty of the generated flags equals the sum of the categories of the rules that fire, capped at 0.35. |
| Flags.PenaltyCapBindsOnlyWhenAllFire | app.py:264 | The penalty reaches the 0.35 cap exactly when all four rules fire. |
| Gate.Grade | app.py:269-280 | A killed property gets F/PASS. Otherwise each letter covers one half-open score band with inclusive lower bounds 90, 80, 70 and 60. Each letter carries exactly one verdict. |
| Gate.GradeLabels | app.py:269-280 | The verdict text is "PASS" for a killed property, and otherwise "STRONG BUY", "BUY", "WATCH", "SPECULATIVE" or "PASS" by the score bands from 90, 80, 70 and 60 down. |
| Gate.VerdictLabelInjective | app.py:271-280 | Distinct verdicts print as distinct texts. |
| Gate.GradeMonotone | app.py:272-280 | A higher score never earns a worse letter. |
| Gate.KillNeverImproves | app.py:269-271 | Killing a property never raises its letter. |
| Narrative.NarrativeSummary | app.py:282-299 | There are one to three strengths and one to three risks. Each strength sentence appears exactly when its rule holds, and the neutral one exactly when none does. The risks are the first min(3, n) flags, or the single "no flags" sentence. |
| Narrative.StrengthsFollowOrder | app.py:283-294 | The strengths are the neutral sentence alone, or follow rule order. |
| Pipeline.Underwrite | app.py:505-515 | Over the composed run: killed iff the gate conditions hold, and a killed property is F/PASS. The sub-scores are those of the property and the DSCR is the stressed DSCR. The weights are the table the rate environment selects, and the base score is the weighted score of those sub-scores. The flags are the generated flags, and the penalty is their text-matched penalty, in [0, 0.35]. The final score is the penalised base score floored at 0, with 0.65·base ≤ final ≤ base, and final < base whenever both the base and the penalty are positive. The grade and verdict are those of the final score. An unkilled property is an A exactly when its final score is at least 90. The strengths and risks are the narrative of the property, its flags and its DSCR. The base score is ≤ 100 when days are non-negative. With no flags the final score equals the base score. |
| Pipeline.PenaltyNeverRaisesGrade | app.py:511-514 | The letter the run gives is never better than the one the unpenalised base score would get, so the flags only lower a grade. |
| Pipeline.FlagsLowerScore | app.py:508-512 | When any flag rule fires, the penalty is at least 0.05, and a positive base score ends strictly lower. |
| Pipeline.RegulatedPropertyFails | app.py:218-219 | Possible rent regulation means F/PASS, a penalty of at least 0.20, and the regulatory flag among the risks shown. |
| Pipeline.ShownFlags | app.py:241-299 | Every flag except the expenses flag reaches the report. The expenses flag is shown exactly when it fires and the other three do not all fire. |
| Pipeline.FourthFlagCut | app.py:241-299 | When the first three rules fire, the expenses flag is not among the risks shown. |
| Pipeline.DefaultDealIsKilled | app.py:470-482 | The deal the input form starts with (stressed income 1300 against a 1850 payment) is killed and graded F/PASS. |
| Pipeline.FlaggedDealEarnsB | app.py:505-515 | A deal scoring at least 90 before the penalty loses 0.11 to its yield and expense flags, keeps exactly 89% of its base score, and is graded B/BUY. |
| Address.Strip | app.py:141 | Neither end of the result is a stripped character. The result is empty exactly when every character would be stripped. A digit-free input stays digit-free. |
| Address.StripSlice | app.py:141 | The stripped text is one contiguous slice of the input, and every character cut from either end is one that strip drops. |
| Address.Split | app.py:144 | At least one part results, and no part contains the separator. |
| Address.SplitJoin | app.py:144 | Joining the parts with the separator gives the input back. |
| Address.SplitWithoutSeparator | app.py:144 | A string without the separator splits into itself alone. |
| Address.DigitSegments | app.py:144 | Only digit-bearing parts are kept. Nothing is kept exactly when no part has a digit. A single part is kept exactly when it has a digit. |
| Address.DigitSegmentsAppend | app.py:144 | The filter works piecewise: the kept parts of two lists joined are the kept parts of each, in order. |
| Address.DigitPartKept | app.py:144 | Every digit-bearing part is among the kept parts. |
| Address.LongestIndex | app.py:147 | The chosen entry is at least as long as every entry and strictly longer than every earlier one, so it is the first of maximal length. |
| Address.CandidateIsFirstLongestPart | app.py:144-147 | Filtering then taking the longest selects the first longest digit-bearing part of the path. |
| Address.FirstLongestExists | app.py:144-147 | When some part carries a digit, there is a first longest digit-bearing part. |
| Address.ReplaceDashes | app.py:149 | The length is kept. Every dash becomes a space and every other character stays where it is, so no dash remains. |
| Address.DropRbSuffix | app.py:148 | A text whose body (before any final line break) ends in "_rb/" loses those four characters, and one ending in "_rb" loses those three. The line break is kept. Any other text is unchanged. |
| Address.TrailingDigits | app.py:150 | The count is exactly the length of the final run of digits. |
| Address.DropLongDigitTail | app.py:150 | A run of six or more digits ending the body (before any final line break) is removed whole, and the line break is kept. With a shorter run the text is unchanged. |
| Address.CleanCandidate | app.py:148-150 | The cleaned text has no dash, has no slash when the segment had none, and has no white space at either end. |
| Address.CleanCandidateSlice | app.py:148-150 | The cleaned text is one contiguous slice of the dash-replaced segment, and only white space is cut before it. A final "_rb/" or "_rb" is always cut. Take the text `$` sees once the marker is cut: it is a prefix of the body, and the body itself when there is no marker. A final run of six or more digits in it is cut, and beyond the cut only white space is dropped. |
| Address.ExtractAddress | app.py:138-153 | A returned address has at least 8 characters and contains neither dash nor slash. |
| Address.ExtractAddressPicksFirstLongest | app.py:138-153 | For a path that is not only slashes, the result is the cleaned first longest digit-bearing part: Some of it when it has at least 8 characters, None otherwise. |
| Address.ExtractAddressRejects | app.py:141-146 | A path of only slashes (including the empty path), or a path without digits, yields no address. |
| AddressExamples.ListingPathExample | app.py:138-153 | The path `/1-Elm-St-1234567/` yields `1 Elm St`. The listing number is dropped and exactly eight characters remain. |
| AddressExamples.MarkedSegmentCleaned | app.py:148-150 | The segment `1-Elm-St-1234567_rb` cleans to `1 Elm St`: the marker goes, which bares the listing number, and that goes too. |

## Left out

- The Streamlit UI is left out, and so are the SQLite usage and subscription table keyed by the user's e-mail address (app.py:91-133), the Estated and ATTOM lookups that prefill the price (app.py:158-202) and the PDF report (app.py:304). They are I/O and presentation around the core. No listing site is contacted: only the URL text is read.
- `urlparse` is left out, and so is the `try/except` around it. `Address.ExtractAddress` starts from the path string the parser returns.
- Floating-point rounding is not modelled. All arithmetic is exact over the reals, so equalities such as `penalty == 0.11` hold exactly here, whereas in IEEE doubles they hold only approximately.
- `Scoring.GetWeights`: `str.upper()` is modelled for ASCII letters only. Non-ASCII case mappings are not modelled, for example `ı` upper-cases to `I`.
- `Address.ExtractAddress`: `str.isdigit()` and `\d` are modelled as the ASCII digits only. Unicode decimal digits in a URL path are not recognised.
- `Address.ExtractAddress`: its own contract states only the length bound and the missing dash and slash. Which part is picked, and that the address is that part cleaned, is proved separately in `Address.ExtractAddressPicksFirstLongest`. That neither end is white space is proved for `Address.CleanCandidate`.
- `Narrative.NarrativeSummary` drops the score, letter and verdict parameters, because the source never reads them.
- The address field of `Property.PropertyData` is carried along but no operation reads it.

=== FILE: address.dfy ===
/** Guessing a street address from a listing URL's path (app.py:138-153). The URL parser
    is not modelled: the operation starts from the path it returns. */
module Address {
  import opened Wrappers

  /** The ASCII decimal digits. */
  predicate IsDigit(c: char) {
    '0' <= c <= '9'
  }

  predicate HasDigit(s: string) {
    exists i :: 0 <= i < |s| && IsDigit(s[i])
  }

  predicate IsSlash(c: char) {
    c == '/'
  }

  /** The characters Python's strip removes by default (white space). */
  predicate IsSpace(c: char) {
    || c == ' '
    || ('\t' <= c <= '\r')
    || ('\U{1C}' <= c <= '\U{1F}')
    || c == '\U{85}' || c == '\U{A0}' || c == '\U{1680}'
    || ('\U{2000}' <= c <= '\U{200A}')
    || c == '\U{2028}' || c == '\U{2029}' || c == '\U{202F}' || c == '\U{205F}' || c == '\U{3000}'
  }

  /** The character `c` does not occur in `s`. */
  predicate Free(s: string, c: char) {
    forall i :: 0 <= i < |s| ==> s[i] != c
  }

  /** Drops the leading characters satisfying `drop`. */
  function TrimStart(s: string, drop: char -> bool): (r: string)
    ensures |r| <= |s| && r == s[|s| - |r|..]
    ensures |r| > 0 ==> !drop(r[0])
    ensures forall i :: 0 <= i < |s| - |r| ==> drop(s[i])
    decreases |s|
  {
    if |s| > 0 && drop(s[0]) then
      var r := TrimStart(s[1..], drop);
      assert s[1..][|s| - 1 - |r|..] == s[|s| - |r|..];
      assert forall i :: 1 <= i < |s| ==> s[i] == s[1..][i - 1];
      r
    else s
  }

  /** Drops the trailing characters satisfying `drop`. */
  function TrimEnd(s: string, drop: char -> bool): (r: string)
    ensures |r| <= |s| && r == s[..|r|]
    ensures |r| > 0 ==> !drop(r[|r| - 1])
    ensures forall i :: |r| <= i < |s| ==> drop(s[i])
    decreases |s|
  {
    if |s| > 0 && drop(s[|s| - 1]) then
      var r := TrimEnd(s[..|s| - 1], drop);
      assert s[..|s| - 1][..|r|] == s[..|r|];
      r
    else s
  }

  /** Python's strip with a set of characters: the result is the piece of `s` left once
      every character `drop` accepts is removed from both ends. */
  function Strip(s: string, drop: char -> bool): (r: string)
    ensures !HasDigit(s) ==> !HasDigit(r)
    ensures |r| > 0 ==> !drop(r[0]) && !drop(r[|r| - 1])
    ensures |r| == 0 <==> forall i :: 0 <= i < |s| ==> drop(s[i])
  {
    StripFacts(s, drop);
    TrimEnd(TrimStart(s, drop), drop)
  }

  /** The stripped text is one contiguous piece of `s`, and everything cut away on
      either side is droppable. */
  lemma StripSlice(s: string, drop: char -> bool) returns (a: nat, b: nat)
    ensures var r := Strip(s, drop);
      && a <= b <= |s| && r == s[a..b]
      && (forall i :: 0 <= i < a ==> drop(s[i]))
      && (forall i :: b <= i < |s| ==> drop(s[i]))
  {
    var t := TrimStart(s, drop);
    var r := TrimEnd(t, drop);
    a := |s| - |t|;
    b := a + |r|;
    assert r == t[..|r|];
    assert t[..|r|] == s[a..b];
    forall i | b <= i < |s|
      ensures drop(s[i])
    {
      assert s[i] == t[i - a];
    }
  }

  lemma StripFacts(s: string, drop: char -> bool)
    ensures var r := TrimEnd(TrimStart(s, drop), drop);
      && (!HasDigit(s) ==> !HasDigit(r))
      && (|r| > 0 ==> !drop(r[0]) && !drop(r[|r| - 1]))
      && (|r| == 0 <==> forall i :: 0 <= i < |s| ==> drop(s[i]))
  {
    var t := TrimStart(s, drop);
    var r := TrimEnd(t, drop);
    assert forall i :: 0 <= i < |r| ==> r[i] == s[|s| - |t| + i];
    if |r| > 0 {
      assert r[0] == t[0];
    }
  }

  /** Python's split on a one-character separator. */
  function Split(s: string, sep: char): (parts: seq<string>)
    ensures |parts| >= 1
    ensures forall i :: 0 <= i < |parts| ==> Free(parts[i], sep)
    ensures !HasDigit(s) ==> forall i :: 0 <= i < |parts| ==> !HasDigit(parts[i])
    decreases |s|
  {
    if |s| == 0 then [""]
    else
      var rest := Split(s[1..], sep);
      if s[0] == sep then [""] + rest
      else [[s[0]] + rest[0]] + rest[1..]
  }

  /** A string without the separator splits into itself alone. */
  lemma {:induction false} SplitWithoutSeparator(s: string, sep: char)
    requires Free(s, sep)
    ensures Split(s, sep) == [s]
    decreases |s|
  {
    if |s| > 0 {
      SplitWithoutSeparator(s[1..], sep);
      assert [s[0]] + s[1..] == s;
    }
  }

  /** The parts glued back together with the separator between neighbours. */
  function Join(parts: seq<string>, sep: char): string
    requires |parts| >= 1
  {
    if |parts| == 1 then parts[0] else parts[0] + [sep] + Join(parts[1..], sep)
  }

  /** Splitting loses nothing: joining the parts with the separator gives the input back. */
  lemma {:induction false} SplitJoin(s: string, sep: char)
    ensures Join(Split(s, sep), sep) == s
    decreases |s|
  {
    if |s| > 0 {
      var rest := Split(s[1..], sep);
      SplitJoin(s[1..], sep);
      if s[0] == sep {
        assert ([""] + rest)[1..] == rest;
        assert s == [sep] + s[1..];
      } else {
        var parts := [[s[0]] + rest[0]] + rest[1..];
        if |rest| == 1 {
          assert s == [s[0]] + rest[0];
        } else {
          assert parts[1..] == rest[1..];
          assert Join(rest, sep) == rest[0] + [sep] + Join(rest[1..], sep);
          assert s == [s[0]] + s[1..];
        }
      }
    }
  }

  /** The parts that contain a digit, in path order. */
  function DigitSegments(parts: seq<string>): (segs: seq<string>)
    ensures |segs| <= |parts|
    ensures |parts| == 1 ==> segs == if HasDigit(parts[0]) then parts else []
    ensures forall i :: 0 <= i < |segs| ==> HasDigit(segs[i])
    ensures segs == [] <==> forall i :: 0 <= i < |parts| ==> !HasDigit(parts[i])
  {
    if |parts| == 0 then []
    else (if HasDigit(parts[0]) then [parts[0]] else []) + DigitSegments(parts[1..])
  }

  /** The filter works part by part: a list's kept parts are its pieces' kept parts, in
      order, and a single part is kept exactly when it has a digit. */
  lemma {:induction false} DigitSegmentsAppend(xs: seq<string>, ys: seq<string>)
    ensures DigitSegments(xs + ys) == DigitSegments(xs) + DigitSegments(ys)
    decreases |xs|
  {
    if |xs| > 0 {
      assert (xs + ys)[1..] == xs[1..] + ys;
      DigitSegmentsAppend(xs[1..], ys);
    } else {
      assert xs + ys == ys;
    }
  }

  /** Every digit-bearing part is kept. */
  lemma DigitPartKept(parts: seq<string>, i: nat)
    requires i < |parts| && HasDigit(parts[i])
    ensures parts[i] in DigitSegments(parts)
  {
    assert parts == parts[..i] + ([parts[i]] + parts[i + 1..]);
    DigitSegmentsAppend(parts[..i], [parts[i]] + parts[i + 1..]);
    DigitSegmentsAppend([parts[i]], parts[i + 1..]);
    assert DigitSegments([parts[i]]) == [parts[i]];
  }

  /** Where a kept segment came from. */
  lemma {:induction false} SegmentOrigin(parts: seq<string>, k: nat) returns (j: nat)
    requires k < |DigitSegments(parts)|
    ensures j < |parts| && parts[j] == DigitSegments(parts)[k]
  {
    var g := DigitSegments(parts[1..]);
    if HasDigit(parts[0]) {
      if k == 0 {
        j := 0;
      } else {
        j := SegmentOrigin(parts[1..], k - 1);
        j := j + 1;
      }
    } else {
      j := SegmentOrigin(parts[1..], k);
      j := j + 1;
    }
  }

  /** The position of a longest entry, the first one when several tie. */
  function LongestIndex(segs: seq<string>): (k: nat)
    requires |segs| > 0
    ensures k < |segs|
    ensures forall j :: 0 <= j < |segs| ==> |segs[j]| <= |segs[k]|
    ensures forall j :: 0 <= j < k ==> |segs[j]| < |segs[k]|
  {
    if |segs| == 1 then 0
    else
      var k := 1 + LongestIndex(segs[1..]);
      if |segs[0]| >= |segs[k]| then 0 else k
  }

  /** Part `i` contains a digit, no digit-bearing part is longer, and every earlier
      digit-bearing part is strictly shorter. */
  predicate FirstLongestDigitPart(parts: seq<string>, i: int) {
    && 0 <= i < |parts|
    && HasDigit(parts[i])
    && (forall j :: 0 <= j < |parts| && HasDigit(parts[j]) ==> |parts[j]| <= |parts[i]|)
    && (forall j :: 0 <= j < i && HasDigit(parts[j]) ==> |parts[j]| < |parts[i]|)
  }

  /** Whenever some part carries a digit, a first longest digit-bearing part exists. */
  lemma {:induction false} FirstLongestExists(parts: seq<string>) returns (i: int)
    requires exists j :: 0 <= j < |parts| && HasDigit(parts[j])
    ensures FirstLongestDigitPart(parts, i)
    decreases |parts|
  {
    var n := |parts|;
    var init := parts[..n - 1];
    if exists j :: 0 <= j < n - 1 && HasDigit(init[j]) {
      var i' := FirstLongestExists(init);
      assert forall j :: 0 <= j < n - 1 ==> parts[j] == init[j];
      if HasDigit(parts[n - 1]) && |parts[n - 1]| > |init[i']| {
        i := n - 1;
      } else {
        i := i';
      }
    } else {
      assert forall j :: 0 <= j < n - 1 ==> parts[j] == init[j];
      i := n - 1;
    }
  }

  /** Filtering and then taking the first longest entry picks the first longest
      digit-bearing part of the path. */
  lemma {:induction false} CandidateIsFirstLongestPart(parts: seq<string>, i: int)
    requires FirstLongestDigitPart(parts, i)
    ensures var segs := DigitSegments(parts);
      |segs| > 0 && segs[LongestIndex(segs)] == parts[i]
  {
    var rest := parts[1..];
    var g := DigitSegments(rest);
    var segs := DigitSegments(parts);
    if !HasDigit(parts[0]) {
      assert i > 0;
      assert segs == g;
      forall j | 0 <= j < |rest| && HasDigit(rest[j])
        ensures |rest[j]| <= |rest[i - 1]|
      {
        assert rest[j] == parts[j + 1];
      }
      forall j | 0 <= j < i - 1 && HasDigit(rest[j])
        ensures |rest[j]| < |rest[i - 1]|
      {
        assert rest[j] == parts[j + 1];
      }
      CandidateIsFirstLongestPart(rest, i - 1);
    } else {
      assert segs == [parts[0]] + g;
      if i == 0 {
        if |g| > 0 {
          var k := 1 + LongestIndex(g);
          assert segs[k] == g[k - 1];
          var j := SegmentOrigin(rest, k - 1);
          assert rest[j] == parts[j + 1];
        }
      } else {
        forall j | 0 <= j < |rest| && HasDigit(rest[j])
          ensures |rest[j]| <= |rest[i - 1]|
        {
          assert rest[j] == parts[j + 1];
        }
        forall j | 0 <= j < i - 1 && HasDigit(rest[j])
          ensures |rest[j]| < |rest[i - 1]|
        {
          assert rest[j] == parts[j + 1];
        }
        CandidateIsFirstLongestPart(rest, i - 1);
        assert segs[1..] == g;
      }
    }
  }

  /** The two places Python's `$` matches: the text before a final line break, and that
      line break (or nothing). */
  function EndAnchor(s: string): (parts: (string, string))
    ensures parts.0 + parts.1 == s
    ensures parts.1 == "" || parts.1 == "\n"
  {
    if |s| > 0 && s[|s| - 1] == '\n' then (s[..|s| - 1], "\n") else (s, "")
  }

  predicate EndsWith(s: string, suffix: string) {
    |suffix| <= |s| && s[|s| - |suffix|..] == suffix
  }

  /** Removes the listing marker "_rb", with or without a slash after it, when it ends the
      text (before a final line break, which stays); anything else is left alone. */
  function DropRbSuffix(s: string): (r: string)
    ensures var (body, tail) := EndAnchor(s);
      EndsWith(body, "_rb/") ==> r == body[..|body| - 4] + tail
    ensures var (body, tail) := EndAnchor(s);
      !EndsWith(body, "_rb/") && EndsWith(body, "_rb") ==> r == body[..|body| - 3] + tail
    ensures var body := EndAnchor(s).0;
      !EndsWith(body, "_rb/") && !EndsWith(body, "_rb") ==> r == s
  {
    var (body, tail) := EndAnchor(s);
    if EndsWith(body, "_rb/") then body[..|body| - 4] + tail
    else if EndsWith(body, "_rb") then body[..|body| - 3] + tail
    else s
  }

  /** Every dash becomes a space; every other character stays where it is. */
  function ReplaceDashes(s: string): (r: string)
    ensures |r| == |s|
    ensures Free(r, '-')
    ensures forall i :: 0 <= i < |s| && s[i] == '-' ==> r[i] == ' '
    ensures forall i :: 0 <= i < |s| && s[i] != '-' ==> r[i] == s[i]
  {
    seq(|s|, i requires 0 <= i < |s| => if s[i] == '-' then ' ' else s[i])
  }

  /** Length of the run of digits that ends `s`. */
  function TrailingDigits(s: string): (n: nat)
    ensures n <= |s|
    ensures forall i :: |s| - n <= i < |s| ==> IsDigit(s[i])
    ensures n < |s| ==> !IsDigit(s[|s| - n - 1])
  {
    if |s| > 0 && IsDigit(s[|s| - 1]) then 1 + TrailingDigits(s[..|s| - 1]) else 0
  }

  /** A run of six or more digits ending the text (before a final line break, which
      stays) is removed whole; a shorter run, or none, leaves the text alone. */
  function DropLongDigitTail(s: string): (r: string)
    ensures var (body, tail) := EndAnchor(s);
      TrailingDigits(body) >= 6 ==> r == body[..|body| - TrailingDigits(body)] + tail
    ensures TrailingDigits(EndAnchor(s).0) < 6 ==> r == s
  {
    var (body, tail) := EndAnchor(s);
    var n := TrailingDigits(body);
    if n >= 6 then body[..|body| - n] + tail else s
  }

  /** The candidate segment turned into address text: no dash survives, a slash-free
      segment gives slash-free text, and neither end is white space. */
  function CleanCandidate(candidate: string): (addr: string)
    ensures Free(addr, '-')
    ensures Free(candidate, '/') ==> Free(addr, '/')
    ensures |addr| > 0 ==> !IsSpace(addr[0]) && !IsSpace(addr[|addr| - 1])
  {
    CleanCandidateKeepsFree(candidate, '-');
    CleanCandidateKeepsFree(candidate, '/');
    Strip(DropLongDigitTail(ReplaceDashes(DropRbSuffix(candidate))), IsSpace)
  }

  /** Each cleaning step keeps a missing character missing, and the dash goes missing at
      the replacement step. */
  lemma CleanCandidateKeepsFree(candidate: string, c: char)
    requires c == '-' || c == '/'
    ensures var spaced := ReplaceDashes(DropRbSuffix(candidate));
      (c == '-' || Free(candidate, c)) ==> Free(Strip(DropLongDigitTail(spaced), IsSpace), c)
  {
    var noRb := DropRbSuffix(candidate);
    var spaced := ReplaceDashes(noRb);
    if c == '-' || Free(candidate, c) {
      if c != '-' {
        DropRbSuffixKeepsFree(candidate, c);
      }
      assert Free(spaced, c);
      DropLongDigitTailKeepsFree(spaced, c);
      StripKeepsFree(DropLongDigitTail(spaced), IsSpace, c);
    }
  }

  /** What cleaning keeps and what it removes, read against the dash-replaced segment:
      the address is one contiguous piece of it, and only white space goes from the front.
      A final "_rb" or "_rb/" always goes. Then, in the text `$` sees once the marker is
      cut, a final run of six or more digits goes, and beyond that only white space is
      dropped. Without a marker, that text is the segment's own body. */
  lemma CleanCandidateSlice(candidate: string) returns (a: nat, b: nat)
    ensures var body, spaced := EndAnchor(candidate).0, ReplaceDashes(candidate);
      && a <= b <= |body|
      && CleanCandidate(candidate) == spaced[a..b]
      && (forall i :: 0 <= i < a ==> IsSpace(spaced[i]))
    ensures var body := EndAnchor(candidate).0;
      EndsWith(body, "_rb/") ==> b <= |body| - 4
    ensures var body := EndAnchor(candidate).0;
      EndsWith(body, "_rb") ==> b <= |body| - 3
    ensures var body, inner := EndAnchor(candidate).0, EndAnchor(DropRbSuffix(candidate)).0;
      && inner <= body
      && (!EndsWith(body, "_rb/") && !EndsWith(body, "_rb") ==> inner == body)
    ensures var spaced, inner := ReplaceDashes(candidate), EndAnchor(DropRbSuffix(candidate)).0;
      var n := TrailingDigits(inner);
      n >= 6 ==> b <= |inner| - n && forall i :: b <= i < |inner| - n ==> IsSpace(spaced[i])
    ensures var spaced, inner := ReplaceDashes(candidate), EndAnchor(DropRbSuffix(candidate)).0;
      TrailingDigits(inner) < 6 ==> b <= |inner| && forall i :: b <= i < |inner| ==> IsSpace(spaced[i])
  {
    var k, t := CleanedPrefix(candidate);
    CutAnchor(candidate);
    CleanCandidateSteps(candidate);
    a, b := StripPrefix(ReplaceDashes(candidate), k, t);
  }

  /** Stripping white space from a prefix of `rd`, perhaps followed by one newline, leaves
      a slice of `rd` with only white space cut on either side. */
  lemma StripPrefix(rd: string, k: nat, t: string) returns (a: nat, b: nat)
    requires k <= |rd| && (t == "" || t == "\n")
    ensures a <= b <= k && Strip(rd[..k] + t, IsSpace) == rd[a..b]
    ensures forall i :: 0 <= i < a ==> IsSpace(rd[i])
    ensures forall i :: b <= i < k ==> IsSpace(rd[i])
  {
    var x := rd[..k];
    a, b := StripBreak(x, t, IsSpace);
    SliceOfPrefix(rd, k, a, b);
    forall i | 0 <= i < a
      ensures IsSpace(rd[i])
    {
      assert x[i] == rd[i];
    }
    forall i | b <= i < k
      ensures IsSpace(rd[i])
    {
      assert x[i] == rd[i];
    }
  }

  lemma SliceOfPrefix(s: string, k: nat, a: nat, b: nat)
    requires a <= b <= k <= |s|
    ensures s[..k][a..b] == s[a..b]
  {
  }

  lemma CleanCandidateSteps(candidate: string)
    ensures CleanCandidate(candidate)
      == Strip(DropLongDigitTail(ReplaceDashes(DropRbSuffix(candidate))), IsSpace)
  {
  }

  /** The text `$` sees once the marker is cut is a prefix of the segment's body, shorter
      by at least the marker, and the body itself when there is no marker. */
  lemma CutAnchor(candidate: string)
    ensures var body, inner := EndAnchor(candidate).0, EndAnchor(DropRbSuffix(candidate)).0;
      && inner <= body
      && (EndsWith(body, "_rb/") ==> |inner| <= |body| - 4)
      && (EndsWith(body, "_rb") ==> |inner| <= |body| - 3)
      && (!EndsWith(body, "_rb/") && !EndsWith(body, "_rb") ==> inner == body)
  {
    var body, tail := EndAnchor(candidate).0, EndAnchor(candidate).1;
    var k1 := DropRbSuffixPrefix(candidate);
    var y := DropRbSuffix(candidate);
    var inner := EndAnchor(y).0;
    EndAnchorShorter(candidate[..k1], tail);
    assert inner == y[..|inner|];
    assert y[..|inner|] == candidate[..|inner|];
    assert body == candidate[..|body|];
    assert inner == body[..|inner|];
  }

  /** Before the final strip, the text is a prefix of the dash-replaced segment, cut by the
      long digit run of the text `$` sees once the marker is cut; a line break may follow
      it. */
  lemma CleanedPrefix(candidate: string) returns (k: nat, t: string)
    ensures var rd, inner := ReplaceDashes(candidate), EndAnchor(DropRbSuffix(candidate)).0;
      && k <= |inner| && (t == "" || t == "\n")
      && DropLongDigitTail(ReplaceDashes(DropRbSuffix(candidate))) == rd[..k] + t
      && k == if TrailingDigits(inner) >= 6 then |inner| - TrailingDigits(inner) else |inner|
  {
    var tail := EndAnchor(candidate).1;
    var rd := ReplaceDashes(candidate);
    var y := DropRbSuffix(candidate);
    var k1 := DropRbSuffixPrefix(candidate);
    ReplaceDashesPrefix(candidate, k1, tail);
    k, t := DigitTailOfReplaced(y);
    EndAnchorShorter(candidate[..k1], tail);
    PrefixOfCut(rd, k1, tail, k);
  }

  lemma PrefixOfCut(x: string, k1: nat, tail: string, k: nat)
    requires k <= k1 <= |x|
    ensures (x[..k1] + tail)[..k] == x[..k]
  {
  }

  /** Dash replacement followed by the digit-run cut leaves a prefix of the replaced text,
      cut by the digit run of the text `$` sees in `y`, before dash replacement. */
  lemma DigitTailOfReplaced(y: string) returns (k: nat, t: string)
    ensures var inner := EndAnchor(y).0;
      && k <= |inner| && (t == "" || t == "\n")
      && DropLongDigitTail(ReplaceDashes(y)) == ReplaceDashes(y)[..k] + t
      && k == if TrailingDigits(inner) >= 6 then |inner| - TrailingDigits(inner) else |inner|
  {
    var spaced := ReplaceDashes(y);
    k := DropLongDigitTailPrefix(spaced);
    EndAnchorReplaceDashes(y);
    TrailingDigitsReplaceDashes(EndAnchor(y).0);
    t := EndAnchor(spaced).1;
  }

  /** Dash replacement leaves line breaks alone, so `$` finds the same place in the
      replaced text. */
  lemma EndAnchorReplaceDashes(y: string)
    ensures EndAnchor(ReplaceDashes(y)).0 == ReplaceDashes(EndAnchor(y).0)
    ensures EndAnchor(ReplaceDashes(y)).1 == EndAnchor(y).1
  {
    var body, tail := EndAnchor(y).0, EndAnchor(y).1;
    ReplaceDashesPrefix(y, |body|, tail);
    ReplaceDashesPrefix(y, |body|, "");
    assert y[..|body|] == body;
    var r := ReplaceDashes(y);
    if tail == "" {
      assert body == y;
      assert |r| == 0 || r[|r| - 1] != '\n';
    } else {
      assert r[|r| - 1] == '\n';
      assert r[..|r| - 1] == r[..|body|];
    }
  }

  /** Removing the marker leaves a prefix of the text, followed by the final line break if
      there was one. */
  lemma DropRbSuffixPrefix(s: string) returns (k: nat)
    ensures var body := EndAnchor(s).0;
      && k <= |body|
      && DropRbSuffix(s) == s[..k] + EndAnchor(s).1
      && (EndsWith(body, "_rb/") ==> k == |body| - 4)
      && (!EndsWith(body, "_rb/") && EndsWith(body, "_rb") ==> k == |body| - 3)
      && (!EndsWith(body, "_rb/") && !EndsWith(body, "_rb") ==> k == |body|)
  {
    var body := EndAnchor(s).0;
    assert body == s[..|body|];
    if EndsWith(body, "_rb/") {
      k := |body| - 4;
    } else if EndsWith(body, "_rb") {
      k := |body| - 3;
    } else {
      k := |body|;
    }
    assert body[..k] == s[..k];
  }

  /** Removing a long digit run leaves a prefix of the text, followed by the final line
      break if there was one. */
  lemma DropLongDigitTailPrefix(s: string) returns (k: nat)
    ensures var body := EndAnchor(s).0;
      && k <= |body|
      && DropLongDigitTail(s) == s[..k] + EndAnchor(s).1
      && (TrailingDigits(body) >= 6 ==> k == |body| - TrailingDigits(body))
      && (TrailingDigits(body) < 6 ==> k == |body|)
  {
    var body := EndAnchor(s).0;
    assert body == s[..|body|];
    k := if TrailingDigits(body) >= 6 then |body| - TrailingDigits(body) else |body|;
    assert body[..k] == s[..k];
  }

  /** Dash replacement works character by character, so it commutes with taking a prefix
      and leaves a line break alone. */
  lemma ReplaceDashesPrefix(x: string, k: nat, t: string)
    requires k <= |x| && (t == "" || t == "\n")
    ensures ReplaceDashes(x[..k] + t) == ReplaceDashes(x)[..k] + t
  {
    var l, r := ReplaceDashes(x[..k] + t), ReplaceDashes(x)[..k] + t;
    assert |l| == |r|;
    forall i | 0 <= i < |l|
      ensures l[i] == r[i]
    {
      if i < k {
        assert (x[..k] + t)[i] == x[i];
      } else {
        assert (x[..k] + t)[i] == t[i - k];
      }
    }
  }

  /** Appending nothing or a line break never lengthens the text `$` looks at. */
  lemma EndAnchorShorter(y: string, t: string)
    requires t == "" || t == "\n"
    ensures |EndAnchor(y + t).0| <= |y|
    ensures t == "\n" ==> EndAnchor(y + t) == (y, "\n")
  {
    if t == "\n" {
      assert (y + t)[..|y + t| - 1] == y;
    } else {
      assert y + t == y;
    }
  }

  /** Stripping text followed by nothing or by one droppable character: that character
      goes with the rest, and the result is a piece of the text. */
  lemma StripBreak(x: string, t: string, drop: char -> bool) returns (a: nat, b: nat)
    requires t == "" || (|t| == 1 && drop(t[0]))
    ensures a <= b <= |x| && Strip(x + t, drop) == x[a..b]
    ensures forall i :: 0 <= i < a ==> drop(x[i])
    ensures forall i :: b <= i < |x| ==> drop(x[i])
  {
    StripDroppedTail(x, t, drop);
    a, b := StripSlice(x, drop);
  }

  lemma StripDroppedTail(x: string, t: string, drop: char -> bool)
    requires t == "" || (|t| == 1 && drop(t[0]))
    ensures Strip(x + t, drop) == Strip(x, drop)
  {
    if t == "" {
      assert x + t == x;
    } else {
      assert x + t == x + [t[0]];
      StripIgnoresDroppedLast(x, t[0], drop);
    }
  }

  /** A droppable character at the end changes nothing about the stripped text. */
  lemma StripIgnoresDroppedLast(x: string, c: char, drop: char -> bool)
    requires drop(c)
    ensures Strip(x + [c], drop) == Strip(x, drop)
  {
    var t := TrimStart(x, drop);
    TrimStartDroppedLast(x, c, drop);
    if |t| > 0 {
      assert (t + [c])[..|t + [c]| - 1] == t;
    }
  }

  /** Trimming the front of a text with a droppable character appended: the character
      stays after whatever survives, or goes too when nothing does. */
  lemma {:induction false} TrimStartDroppedLast(x: string, c: char, drop: char -> bool)
    requires drop(c)
    ensures TrimStart(x + [c], drop) == if |TrimStart(x, drop)| == 0 then [] else TrimStart(x, drop) + [c]
    decreases |x|
  {
    if |x| == 0 {
      assert x + [c] == [c];
      assert [c][1..] == [];
    } else {
      assert (x + [c])[0] == x[0];
      assert (x + [c])[1..] == x[1..] + [c];
      if drop(x[0]) {
        TrimStartDroppedLast(x[1..], c, drop);
      }
    }
  }

  /** The digit run ending a text is characterised by its two ensures: digits inside, a
      non-digit (or the start) just before. */
  lemma TrailingDigitsUnique(s: string, m: nat)
    requires m <= |s|
    requires forall i :: |s| - m <= i < |s| ==> IsDigit(s[i])
    requires m < |s| ==> !IsDigit(s[|s| - m - 1])
    ensures TrailingDigits(s) == m
  {
  }

  /** Dash replacement does not change which characters are digits. */
  lemma TrailingDigitsReplaceDashes(s: string)
    ensures TrailingDigits(ReplaceDashes(s)) == TrailingDigits(s)
  {
    var r := ReplaceDashes(s);
    var n := TrailingDigits(s);
    assert forall i :: 0 <= i < |s| ==> (IsDigit(r[i]) <==> IsDigit(s[i]));
    TrailingDigitsUnique(r, n);
  }

  /** A prefix, with or without the final line break restored, keeps a missing character
      missing. */
  lemma EndAnchorPrefixKeepsFree(s: string, n: nat, c: char)
    requires Free(s, c) && n <= |EndAnchor(s).0|
    ensures Free(EndAnchor(s).0[..n] + EndAnchor(s).1, c)
  {
    var (body, tail) := EndAnchor(s);
    assert body + tail == s;
    assert forall i :: 0 <= i < |body| ==> body[i] == s[i];
    assert forall i :: 0 <= i < |tail| ==> tail[i] == s[|body| + i];
  }

  lemma DropRbSuffixKeepsFree(s: string, c: char)
    requires Free(s, c)
    ensures Free(DropRbSuffix(s), c)
  {
    var body := EndAnchor(s).0;
    if |body| >= 4 && body[|body| - 4..] == "_rb/" {
      EndAnchorPrefixKeepsFree(s, |body| - 4, c);
    } else if |body| >= 3 && body[|body| - 3..] == "_rb" {
      EndAnchorPrefixKeepsFree(s, |body| - 3, c);
    }
  }

  lemma DropLongDigitTailKeepsFree(s: string, c: char)
    requires Free(s, c)
    ensures Free(DropLongDigitTail(s), c)
  {
    var body := EndAnchor(s).0;
    var n := TrailingDigits(body);
    if n >= 6 {
      EndAnchorPrefixKeepsFree(s, |body| - n, c);
    }
  }

  lemma StripKeepsFree(s: string, drop: char -> bool, c: char)
    requires Free(s, c)
    ensures Free(Strip(s, drop), c)
  {
    var t := TrimStart(s, drop);
    var r := TrimEnd(t, drop);
    assert forall i :: 0 <= i < |r| ==> r[i] == s[|s| - |t| + i];
  }

  /** A path without digits has no digit-bearing segment. */
  lemma NoDigitNoSegment(path: string)
    requires forall i :: 0 <= i < |path| ==> !IsDigit(path[i])
    ensures DigitSegments(Split(Strip(path, IsSlash), '/')) == []
  {
    var parts := Split(Strip(path, IsSlash), '/');
    assert !HasDigit(path);
    assert forall i :: 0 <= i < |parts| ==> !HasDigit(parts[i]);
  }

  /** A kept segment inherits the absence of a character from the parts. */
  lemma SegmentKeepsFree(parts: seq<string>, k: nat, c: char)
    requires k < |DigitSegments(parts)|
    requires forall i :: 0 <= i < |parts| ==> Free(parts[i], c)
    ensures Free(DigitSegments(parts)[k], c)
  {
    var j := SegmentOrigin(parts, k);
  }

  /** The address guessed from a URL path, if any: text of at least 8 characters, with
      neither dash nor slash. */
  function ExtractAddress(path: string): (r: Option<string>)
    ensures r.Some? ==> |r.value| >= 8
    ensures r.Some? ==> Free(r.value, '-') && Free(r.value, '/')
  {
    var trimmed := Strip(path, IsSlash);
    if |trimmed| == 0 then None
    else
      var parts := Split(trimmed, '/');
      var segments := DigitSegments(parts);
      if |segments| == 0 then None
      else
        var k := LongestIndex(segments);
        SegmentKeepsFree(parts, k, '/');
        var addr := CleanCandidate(segments[k]);
        if |addr| >= 8 then Some(addr) else None
  }

  /** A path made only of slashes (the empty path included), or a path without a digit,
      yields no address. */
  lemma ExtractAddressRejects(path: string)
    ensures (forall i :: 0 <= i < |path| ==> path[i] == '/') ==> ExtractAddress(path) == None
    ensures (forall i :: 0 <= i < |path| ==> !IsDigit(path[i])) ==> ExtractAddress(path) == None
  {
    if forall i :: 0 <= i < |path| ==> !IsDigit(path[i]) {
      NoDigitNoSegment(path);
    }
  }

  /** The address is the cleaned first longest digit-bearing part of the slash-stripped
      path, kept exactly when it has at least eight characters. */
  lemma ExtractAddressPicksFirstLongest(path: string, i: int)
    requires |Strip(path, IsSlash)| > 0
    requires FirstLongestDigitPart(Split(Strip(path, IsSlash), '/'), i)
    ensures var a := CleanCandidate(Split(Strip(path, IsSlash), '/')[i]);
      ExtractAddress(path) == if |a| >= 8 then Some(a) else None
  {
    CandidateIsFirstLongestPart(Split(Strip(path, IsSlash), '/'), i);
  }
}
module AddressExamples {
  import opened Wrappers
  import opened Address

  const ListingPath := "/1-Elm-St-1234567/"
  const ListingSegment := "1-Elm-St-1234567"

  lemma ListingPathParts()
    ensures Split(Strip(ListingPath, IsSlash), '/') == [ListingSegment]
  {
    var path := ListingPath;
    assert TrimStart(path[1..], IsSlash) == path[1..];
    assert TrimStart(path, IsSlash) == path[1..];
    assert path[1..][..|path| - 2] == ListingSegment;
    assert TrimEnd(path[1..][..|path| - 2], IsSlash) == ListingSegment;
    assert TrimEnd(path[1..], IsSlash) == ListingSegment;
    SplitWithoutSeparator(ListingSegment, '/');
  }

  const SpacedSegment := "1 Elm St 1234567"

  lemma ListingSegmentSpaced()
    ensures ReplaceDashes(DropRbSuffix(ListingSegment)) == SpacedSegment
  {
    var seg := ListingSegment;
    assert EndAnchor(seg) == (seg, "");
    assert seg[|seg| - 4..] != "_rb/" && seg[|seg| - 3..] != "_rb";
    assert DropRbSuffix(seg) == seg;
    assert ReplaceDashes(seg) == SpacedSegment;
  }

  lemma SpacedSegmentTrimmed()
    ensures DropLongDigitTail(SpacedSegment) == "1 Elm St "
  {
    var spaced := SpacedSegment;
    assert !IsDigit(spaced[8]);
    assert forall i :: 9 <= i < 16 ==> IsDigit(spaced[i]);
    assert TrailingDigits(spaced) == 7;
  }

  lemma StrippedExample()
    ensures Strip("1 Elm St ", IsSpace) == "1 Elm St"
  {
    var s := "1 Elm St ";
    assert !IsSpace(s[0]) && !IsSpace(s[7]) && IsSpace(s[8]);
    assert TrimStart(s, IsSpace) == s;
    assert TrimEnd(s, IsSpace) == s[..8];
  }

  lemma ListingSegmentCleaned()
    ensures CleanCandidate(ListingSegment) == "1 Elm St"
  {
    ListingSegmentSpaced();
    SpacedSegmentTrimmed();
    StrippedExample();
    assert Free(ListingSegment, '/');
  }

  const MarkedSegment := "1-Elm-St-1234567_rb"

  lemma MarkedSegmentCut()
    ensures DropRbSuffix(MarkedSegment) == ListingSegment
  {
    var seg := MarkedSegment;
    assert EndAnchor(seg) == (seg, "");
    assert seg[|seg| - 4..] != "_rb/" && seg[|seg| - 3..] == "_rb";
    assert seg[..|seg| - 3] == ListingSegment;
  }

  /** A segment ending in the listing marker: the marker goes first, which bares the
      listing number, so that goes too. */
  lemma MarkedSegmentCleaned()
    ensures CleanCandidate(MarkedSegment) == "1 Elm St"
  {
    MarkedSegmentCut();
    ListingSegmentSpaced();
    SpacedSegmentTrimmed();
    StrippedExample();
    CleanCandidateSteps(MarkedSegment);
  }

  /** A one-segment listing path: the dashes become spaces, the trailing listing number
      goes, and the eight characters left are exactly enough. */
  lemma ListingPathExample()
    ensures ExtractAddress(ListingPath) == Some("1 Elm St")
  {
    var trimmed := Strip(ListingPath, IsSlash);
    ListingPathParts();
    assert |trimmed| > 0;
    var parts := Split(trimmed, '/');
    assert parts == [ListingSegment];
    assert IsDigit(ListingSegment[0]);
    var segments := DigitSegments(parts);
    assert segments == [ListingSegment];
    assert LongestIndex(segments) == 0;
    ListingSegmentCleaned();
  }
}

=== FILE: arith.dfy ===
/** Real-valued helpers shared by the underwriting stages. */
module Arith {

  /** The larger of two reals. */
  function Max(a: real, b: real): (r: real)
    ensures r >= a && r >= b
    ensures r == a || r == b
  {
    if a >= b then a else b
  }

  /** The smaller of two reals. */
  function Min(a: real, b: real): (r: real)
    ensures r <= a && r <= b
    ensures r == a || r == b
  {
    if a <= b then a else b
  }

  predicate InUnit(x: real) {
    0.0 <= x <= 1.0
  }

  /** `x` clamped into [0,1]: the clamp every sub-score goes through. */
  function Clamp01(x: real): (r: real)
    ensures InUnit(r)
    ensures InUnit(x) ==> r == x
    ensures x < 0.0 ==> r == 0.0
    ensures x > 1.0 ==> r == 1.0
  {
    Max(0.0, Min(x, 1.0))
  }
}

=== FILE: flags.dfy ===
/** Heuristic red flags and the penalty they carry (app.py:241-264). */
module Flags {
  import opened Arith
  import opened Seqs
  import opened Property

  const FlagOverstated: string := "Overstated yield vs price"
  const FlagVacancy: string := "Vacancy assumption looks optimistic"
  const FlagRegulatory: string := "Regulatory pressure risk"
  const FlagExpenses: string := "Expenses might be understated"

  /** The order in which the rules are evaluated, and hence the order of the flags. */
  const FlagOrder: seq<string> := [FlagOverstated, FlagVacancy, FlagRegulatory, FlagExpenses]

  /** The penalty total is capped here. */
  const PenaltyCap: real := 0.35

  /** The rules, each independent of the others. */
  predicate OverstatedFires(p: PropertyData) { GrossYield(p) > 0.14 }
  predicate VacancyFires(p: PropertyData) { p.vacancyRate < 0.05 }
  predicate RegulatoryFires(p: PropertyData) { p.rentRegulationRisk }
  predicate ExpensesFires(p: PropertyData) { p.monthlyExpenses < p.monthlyRent * 0.20 }

  /** The list the four rules build, in evaluation order. */
  function AiFlags(p: PropertyData): (flags: seq<string>)
    ensures FlagOverstated in flags <==> OverstatedFires(p)
    ensures FlagVacancy in flags <==> VacancyFires(p)
    ensures FlagRegulatory in flags <==> RegulatoryFires(p)
    ensures FlagExpenses in flags <==> ExpensesFires(p)
    ensures forall i :: 0 <= i < |flags| ==> flags[i] in FlagOrder
  {
    When(OverstatedFires(p), FlagOverstated)
    + When(VacancyFires(p), FlagVacancy)
    + When(RegulatoryFires(p), FlagRegulatory)
    + When(ExpensesFires(p), FlagExpenses)
  }

  /** Substring test on strings: `sub` occurs contiguously in `s`. */
  predicate Contains(s: string, sub: string) {
    exists i :: 0 <= i <= |s| - |sub| && OccursAt(s, sub, i)
  }

  predicate OccursAt(s: string, sub: string, i: int)
    requires 0 <= i <= |s| - |sub|
  {
    s[i..i + |sub|] == sub
  }

  /** A word whose first letter never occurs in `s` cannot occur in `s`. */
  lemma MissingInitialNotContained(s: string, sub: string)
    requires |sub| > 0 && sub[0] !in s
    ensures !Contains(s, sub)
  {
    forall i | 0 <= i <= |s| - |sub|
      ensures !OccursAt(s, sub, i)
    {
      assert s[i..i + |sub|][0] == s[i] != sub[0];
    }
  }

  /** Reference positions of the four flags. */
  lemma FlagIndices()
    ensures IndexOf(FlagOrder, FlagOverstated) == 0
    ensures IndexOf(FlagOrder, FlagVacancy) == 1
    ensures IndexOf(FlagOrder, FlagRegulatory) == 2
    ensures IndexOf(FlagOrder, FlagExpenses) == 3
  {
    assert FlagOrder[0] == FlagOverstated;
    assert FlagOrder[1] == FlagVacancy;
    assert FlagOrder[2] == FlagRegulatory;
    assert FlagOrder[3] == FlagExpenses;
  }

  /** Whatever subset of rules fires, the flags come out in rule order, each at most once. */
  lemma AiFlagsFollowOrder(p: PropertyData)
    ensures FollowsOrder(AiFlags(p), FlagOrder)
    ensures forall i, j :: 0 <= i < j < |AiFlags(p)| ==> AiFlags(p)[i] != AiFlags(p)[j]
  {
    FlagIndices();
    var f0: seq<string> := [];
    AppendOptionalFollowsOrder(f0, OverstatedFires(p), FlagOverstated, FlagOrder);
    var f1 := f0 + When(OverstatedFires(p), FlagOverstated);
    AppendOptionalFollowsOrder(f1, VacancyFires(p), FlagVacancy, FlagOrder);
    var f2 := f1 + When(VacancyFires(p), FlagVacancy);
    AppendOptionalFollowsOrder(f2, RegulatoryFires(p), FlagRegulatory, FlagOrder);
    var f3 := f2 + When(RegulatoryFires(p), FlagRegulatory);
    AppendOptionalFollowsOrder(f3, ExpensesFires(p), FlagExpenses, FlagOrder);
    var f4 := f3 + When(ExpensesFires(p), FlagExpenses);
    assert f0 + When(OverstatedFires(p), FlagOverstated) == When(OverstatedFires(p), FlagOverstated);
    assert AiFlags(p) == f4;
    FollowsOrderDistinct(f4, FlagOrder);
  }

  /** The penalty one flag carries: the first keyword it contains decides, and a flag
      containing none of them costs nothing. */
  function CategoryPenalty(flag: string): (r: real)
    ensures r == 0.0 || r == 0.05 || r == 0.08 || r == 0.20 || r == 0.06
    ensures Contains(flag, "Overstated") ==> r == 0.05
    ensures !Contains(flag, "Overstated") && Contains(flag, "Vacancy") ==> r == 0.08
    ensures (!Contains(flag, "Overstated") && !Contains(flag, "Vacancy")
      && Contains(flag, "Regulatory")) ==> r == 0.20
    ensures (!Contains(flag, "Overstated") && !Contains(flag, "Vacancy")
      && !Contains(flag, "Regulatory") && Contains(flag, "Expenses")) ==> r == 0.06
    ensures 0.0 <= r <= 0.20
    ensures r == 0.0 <==>
      !Contains(flag, "Overstated") && !Contains(flag, "Vacancy")
      && !Contains(flag, "Regulatory") && !Contains(flag, "Expenses")
  {
    if Contains(flag, "Overstated") then 0.05
    else if Contains(flag, "Vacancy") then 0.08
    else if Contains(flag, "Regulatory") then 0.20
    else if Contains(flag, "Expenses") then 0.06
    else 0.0
  }

  /** The running total of the penalty loop, before the cap. */
  function RawPenalty(flags: seq<string>): (total: real)
    ensures 0.0 <= total <= 0.20 * |flags| as real
    ensures total == 0.0 <==> forall i :: 0 <= i < |flags| ==> CategoryPenalty(flags[i]) == 0.0
  {
    if |flags| == 0 then 0.0
    else RawPenalty(flags[..|flags| - 1]) + CategoryPenalty(flags[|flags| - 1])
  }

  /** The capped penalty. */
  function AiPenalty(flags: seq<string>): (r: real)
    ensures 0.0 <= r <= PenaltyCap
    ensures r <= RawPenalty(flags)
    ensures RawPenalty(flags) <= PenaltyCap ==> r == RawPenalty(flags)
    ensures RawPenalty(flags) >= PenaltyCap ==> r == PenaltyCap
    ensures r == 0.0 <==> forall i :: 0 <= i < |flags| ==> CategoryPenalty(flags[i]) == 0.0
  {
    Min(RawPenalty(flags), PenaltyCap)
  }

  /** The uncapped total is additive over concatenation. */
  lemma {:induction false} RawPenaltyAppend(a: seq<string>, b: seq<string>)
    ensures RawPenalty(a + b) == RawPenalty(a) + RawPenalty(b)
    decreases |b|
  {
    if |b| == 0 {
      assert a + b == a;
    } else {
      var b' := b[..|b| - 1];
      assert (a + b)[..|a + b| - 1] == a + b';
      assert (a + b)[|a + b| - 1] == b[|b| - 1];
      RawPenaltyAppend(a, b');
    }
  }

  /** The order of the flags does not change the penalty. */
  lemma PenaltyIgnoresOrder(a: seq<string>, b: seq<string>)
    ensures AiPenalty(a + b) == AiPenalty(b + a)
  {
    RawPenaltyAppend(a, b);
    RawPenaltyAppend(b, a);
  }

  /** Each of the four flags falls in its own category. */
  lemma FlagCategories()
    ensures CategoryPenalty(FlagOverstated) == 0.05
    ensures CategoryPenalty(FlagVacancy) == 0.08
    ensures CategoryPenalty(FlagRegulatory) == 0.20
    ensures CategoryPenalty(FlagExpenses) == 0.06
  {
    assert OccursAt(FlagOverstated, "Overstated", 0);

    MissingInitialNotContained(FlagVacancy, "Overstated");
    assert OccursAt(FlagVacancy, "Vacancy", 0);

    MissingInitialNotContained(FlagRegulatory, "Overstated");
    MissingInitialNotContained(FlagRegulatory, "Vacancy");
    assert OccursAt(FlagRegulatory, "Regulatory", 0);

    MissingInitialNotContained(FlagExpenses, "Overstated");
    MissingInitialNotContained(FlagExpenses, "Vacancy");
    MissingInitialNotContained(FlagExpenses, "Regulatory");
    assert OccursAt(FlagExpenses, "Expenses", 0);
  }

  /** The penalty of one rule, read off the rule rather than off the flag text. */
  function RulePenalty(fires: bool, amount: real): real {
    if fires then amount else 0.0
  }

  /** Independent reading of the penalty: the categories of the rules that fire. */
  function ExpectedPenalty(p: PropertyData): real {
    RulePenalty(OverstatedFires(p), 0.05) + RulePenalty(VacancyFires(p), 0.08)
    + RulePenalty(RegulatoryFires(p), 0.20) + RulePenalty(ExpensesFires(p), 0.06)
  }

  lemma RawPenaltyWhen(fires: bool, flag: string)
    ensures RawPenalty(When(fires, flag)) == RulePenalty(fires, CategoryPenalty(flag))
  {
    if fires {
      assert When(fires, flag)[..0] == [];
    }
  }

  /** The text-matching penalty of the flags equals the per-rule penalty, capped. */
  lemma PenaltyOfAiFlags(p: PropertyData)
    ensures AiPenalty(AiFlags(p)) == Min(ExpectedPenalty(p), PenaltyCap)
  {
    FlagCategories();
    var e1 := When(OverstatedFires(p), FlagOverstated);
    var e2 := When(VacancyFires(p), FlagVacancy);
    var e3 := When(RegulatoryFires(p), FlagRegulatory);
    var e4 := When(ExpensesFires(p), FlagExpenses);
    RawPenaltyWhen(OverstatedFires(p), FlagOverstated);
    RawPenaltyWhen(VacancyFires(p), FlagVacancy);
    RawPenaltyWhen(RegulatoryFires(p), FlagRegulatory);
    RawPenaltyWhen(ExpensesFires(p), FlagExpenses);
    RawPenaltyAppend(e1, e2);
    RawPenaltyAppend(e1 + e2, e3);
    RawPenaltyAppend(e1 + e2 + e3, e4);
  }

  /** The 0.35 cap binds only when all four rules fire (their categories total 0.39). */
  lemma PenaltyCapBindsOnlyWhenAllFire(p: PropertyData)
    ensures AiPenalty(AiFlags(p)) == PenaltyCap <==>
      OverstatedFires(p) && VacancyFires(p) && RegulatoryFires(p) && ExpensesFires(p)
  {
    PenaltyOfAiFlags(p);
  }
}

=== FILE: gate.dfy ===
/** The hard-stop gate and the grade ladder it overrides (app.py:212-222, 269-280). */
module Gate {
  import opened Property

  /** A property is killed when stressed income does not cover debt service, when rents
      may be regulated, or when it has sat on the market for more than 180 days. */
  function KillSwitch(p: PropertyData): (killed: bool)
    ensures killed <==>
      || StressedNet(p) < DebtService(p)
      || p.rentRegulationRisk
      || p.daysOnMarket > 180
  {
    var dscr := StressedDscr(p);
    DscrBelowOne(p);
    if dscr < 1.0 then true
    else if p.rentRegulationRisk then true
    else if p.daysOnMarket > 180 then true
    else false
  }

  datatype Letter = A | B | C | D | F

  datatype Verdict = StrongBuy | Buy | Watch | Speculative | Pass

  /** The verdict printed next to each letter. */
  function VerdictLabel(v: Verdict): string {
    match v
    case StrongBuy => "STRONG BUY"
    case Buy => "BUY"
    case Watch => "WATCH"
    case Speculative => "SPECULATIVE"
    case Pass => "PASS"
  }

  /** Letters ranked from worst (F = 0) to best (A = 4). */
  function Rank(l: Letter): nat {
    match l
    case F => 0
    case D => 1
    case C => 2
    case B => 3
    case A => 4
  }

  /** A killed property is F/PASS whatever its score; otherwise the score falls in one of
      five bands with inclusive lower bounds, each letter carrying its own verdict. */
  function Grade(score: real, killed: bool): (g: (Letter, Verdict))
    ensures killed ==> g == (F, Pass)
    ensures !killed ==> (g.0 == A <==> score >= 90.0)
    ensures !killed ==> (g.0 == B <==> 80.0 <= score < 90.0)
    ensures !killed ==> (g.0 == C <==> 70.0 <= score < 80.0)
    ensures !killed ==> (g.0 == D <==> 60.0 <= score < 70.0)
    ensures !killed ==> (g.0 == F <==> score < 60.0)
    ensures g.0 == A <==> g.1 == StrongBuy
    ensures g.0 == B <==> g.1 == Buy
    ensures g.0 == C <==> g.1 == Watch
    ensures g.0 == D <==> g.1 == Speculative
    ensures g.0 == F <==> g.1 == Pass
  {
    if killed then (F, Pass)
    else if score >= 90.0 then (A, StrongBuy)
    else if score >= 80.0 then (B, Buy)
    else if score >= 70.0 then (C, Watch)
    else if score >= 60.0 then (D, Speculative)
    else (F, Pass)
  }

  /** The verdict text the run reports, read straight off the score bands: "PASS" for a
      killed property, then "STRONG BUY", "BUY", "WATCH", "SPECULATIVE" and "PASS" from
      90, 80, 70 and 60 down. */
  lemma GradeLabels(score: real, killed: bool)
    ensures VerdictLabel(Grade(score, killed).1) ==
      if killed then "PASS"
      else if score >= 90.0 then "STRONG BUY"
      else if score >= 80.0 then "BUY"
      else if score >= 70.0 then "WATCH"
      else if score >= 60.0 then "SPECULATIVE"
      else "PASS"
  {
  }

  /** Distinct verdicts print as distinct texts, so the text identifies the verdict. */
  lemma VerdictLabelInjective(v1: Verdict, v2: Verdict)
    ensures VerdictLabel(v1) == VerdictLabel(v2) ==> v1 == v2
  {
    if v1 != v2 {
      match v1
      case StrongBuy => assert VerdictLabel(v1)[0] == 'S' && |VerdictLabel(v1)| == 10;
      case Buy => assert |VerdictLabel(v1)| == 3;
      case Watch => assert VerdictLabel(v1)[0] == 'W';
      case Speculative => assert |VerdictLabel(v1)| == 11;
      case Pass => assert VerdictLabel(v1)[0] == 'P';
    }
  }

  /** A higher score never earns a worse letter. */
  lemma GradeMonotone(s1: real, s2: real, killed: bool)
    requires s1 <= s2
    ensures Rank(Grade(s1, killed).0) <= Rank(Grade(s2, killed).0)
  {
  }

  /** The kill switch can only lower the letter. */
  lemma KillNeverImproves(score: real)
    ensures Rank(Grade(score, true).0) <= Rank(Grade(score, false).0)
  {
  }
}

=== FILE: metrics.dfy ===
/** The seven sub-scores of a property (app.py:224-239). */
module Metrics {
  import opened Arith
  import opened Property

  datatype MetricKey = Cashflow | Downside | Location | Yield | Liquidity | Optionality | AiRisk

  /** The order in which the metrics dictionary is built, and hence iterated when scoring. */
  const MetricOrder: seq<MetricKey> :=
    [Cashflow, Downside, Location, Yield, Liquidity, Optionality, AiRisk]

  /** A metrics or weights dictionary. */
  type Table = map<MetricKey, real>

  /** The table has an entry for every one of the seven metric names. */
  predicate Complete(t: Table) {
    forall k: MetricKey :: k in t
  }

  /** Sub-scores together with the stressed DSCR they were derived from. */
  datatype MetricsResult = MetricsResult(scores: Table, dscr: real)

  /** Each sub-score is a linear ratio clamped to [0,1], except liquidity, which is only
      floored at 0 and so exceeds 1 for a negative day count. */
  function CalculateMetrics(p: PropertyData): (r: MetricsResult)
    ensures Complete(r.scores)
    ensures r.dscr * DebtService(p) == StressedNet(p)
    ensures forall k :: k != Liquidity ==> InUnit(r.scores[k])
    ensures 0.0 <= r.scores[Liquidity]
    ensures p.daysOnMarket >= 0 <==> r.scores[Liquidity] <= 1.0
    ensures r.scores[Optionality] == 0.60 && r.scores[AiRisk] == 1.0
    ensures r.scores[Cashflow] == 1.0 <==> r.dscr >= 1.50
    ensures r.scores[Cashflow] == 0.0 <==> r.dscr <= 0.0
    ensures 0.0 <= r.dscr <= 1.50 ==> r.scores[Cashflow] * 1.50 == r.dscr
    ensures 0.0 <= CostRatio(p) <= 1.20 ==> r.scores[Downside] * 1.20 == CostRatio(p)
    ensures 0.0 <= GrossYield(p) <= 0.12 ==> r.scores[Yield] * 0.12 == GrossYield(p)
    ensures p.daysOnMarket <= 180 ==> r.scores[Liquidity] == 1.0 - p.daysOnMarket as real / 180.0
    ensures r.scores[Downside] == 1.0 <==> p.replacementCost >= 1.20 * Max(p.price, 1.0)
    ensures r.scores[Downside] == 0.0 <==> p.replacementCost <= 0.0
    ensures InUnit(p.jobDiversityIndex) ==> r.scores[Location] == p.jobDiversityIndex
    ensures p.jobDiversityIndex >= 1.0 ==> r.scores[Location] == 1.0
    ensures p.jobDiversityIndex <= 0.0 ==> r.scores[Location] == 0.0
    ensures r.scores[Yield] == 1.0 <==> p.monthlyRent * 12.0 >= 0.12 * Max(p.price, 1.0)
    ensures r.scores[Yield] == 0.0 <==> p.monthlyRent <= 0.0
    ensures r.scores[Liquidity] == 0.0 <==> p.daysOnMarket >= 180
  {
    var dscr := StressedDscr(p);
    var scores := map[
      Cashflow := CashflowScore(dscr),
      Downside := DownsideScore(p),
      Location := Clamp01(p.jobDiversityIndex),
      Yield := YieldScore(p),
      Liquidity := LiquidityScore(p.daysOnMarket),
      Optionality := 0.60,
      AiRisk := 1.0];
    AllKeysListed(scores);
    assert scores[Cashflow] == CashflowScore(dscr) && scores[Downside] == DownsideScore(p);
    assert scores[Yield] == YieldScore(p) && scores[Liquidity] == LiquidityScore(p.daysOnMarket);
    MetricsResult(scores, dscr)
  }

  /** DSCR over 1.5, clamped to [0,1]. */
  function CashflowScore(dscr: real): (s: real)
    ensures InUnit(s)
    ensures s == 1.0 <==> dscr >= 1.50
    ensures s == 0.0 <==> dscr <= 0.0
    ensures 0.0 <= dscr <= 1.50 ==> s * 1.50 == dscr
  {
    Clamp01(dscr / 1.50)
  }

  /** Replacement cost over price, over 1.2, clamped to [0,1]. */
  function DownsideScore(p: PropertyData): (s: real)
    ensures InUnit(s)
    ensures s == 1.0 <==> p.replacementCost >= 1.20 * Max(p.price, 1.0)
    ensures s == 0.0 <==> p.replacementCost <= 0.0
    ensures 0.0 <= CostRatio(p) <= 1.20 ==> s * 1.20 == CostRatio(p)
  {
    RatioThreshold(p.replacementCost, Max(p.price, 1.0), 1.20);
    Clamp01(CostRatio(p) / 1.20)
  }

  /** Gross yield over 0.12, clamped to [0,1]. */
  function YieldScore(p: PropertyData): (s: real)
    ensures InUnit(s)
    ensures s == 1.0 <==> p.monthlyRent * 12.0 >= 0.12 * Max(p.price, 1.0)
    ensures s == 0.0 <==> p.monthlyRent <= 0.0
    ensures 0.0 <= GrossYield(p) <= 0.12 ==> s * 0.12 == GrossYield(p)
  {
    RatioThreshold(p.monthlyRent * 12.0, Max(p.price, 1.0), 0.12);
    Clamp01(GrossYield(p) / 0.12)
  }

  /** One minus the share of 180 days spent on the market, floored at 0. */
  function LiquidityScore(days: int): (s: real)
    ensures 0.0 <= s
    ensures days >= 0 <==> s <= 1.0
    ensures days <= 180 ==> s == 1.0 - days as real / 180.0
    ensures s == 0.0 <==> days >= 180
  {
    Max(0.0, 1.0 - days as real / 180.0)
  }

  /** Comparing a ratio against a threshold is comparing the numerator against the
      scaled threshold, since the denominator is at least 1. */
  lemma RatioThreshold(x: real, d: real, t: real)
    requires d >= 1.0
    ensures x / d >= t <==> x >= t * d
    ensures x / d <= 0.0 <==> x <= 0.0
  {
    assert (x / d) * d == x;
    assert (x / d - t) * d == x - t * d;
  }

  /** A table with the seven keys present is complete. */
  lemma AllKeysListed(t: Table)
    requires Cashflow in t && Downside in t && Location in t && Yield in t
    requires Liquidity in t && Optionality in t && AiRisk in t
    ensures Complete(t)
  {
    forall k: MetricKey
      ensures k in t
    {
      match k
      case Cashflow =>
      case Downside =>
      case Location =>
      case Yield =>
      case Liquidity =>
      case Optionality =>
      case AiRisk =>
    }
  }
}

=== FILE: narrative.dfy ===
/** Strength and risk sentences for the report (app.py:282-299). */
module Narrative {
  import opened Seqs
  import opened Property

  const StrengthDscr: string := "Strong stress-tested cash flow (DSCR ≥ 1.25)."
  const StrengthDownside: string := "Downside buffer: priced at/below replacement cost."
  const StrengthLiquidity: string := "Healthy liquidity profile (fast exit)."
  const StrengthNeutral: string :=
    "Neutral strength profile: upside depends on execution and pricing discipline."
  const RiskNone: string := "No major risk flags detected; verify rents/expenses with comps."

  /** The order in which the strength rules are checked. */
  const StrengthOrder: seq<string> := [StrengthDscr, StrengthDownside, StrengthLiquidity]

  /** How many sentences of each kind the report shows. */
  const Shown: nat := 3

  datatype Summary = Summary(strengths: seq<string>, risks: seq<string>)

  predicate StrongDscr(dscr: real) { dscr >= 1.25 }
  predicate DownsideBuffer(p: PropertyData) { p.replacementCost >= p.price }
  predicate FastExit(p: PropertyData) { p.daysOnMarket <= 45 }

  /** The strength sentences whose rules hold, in rule order. */
  function Strengths(p: PropertyData, dscr: real): seq<string> {
    When(StrongDscr(dscr), StrengthDscr)
    + When(DownsideBuffer(p), StrengthDownside)
    + When(FastExit(p), StrengthLiquidity)
  }

  /** At most three strengths and three risks, never none: each strength appears exactly
      when its rule holds, the neutral sentence exactly when none does; the risks are the
      first three flags, or the "no flags" sentence when there are none. */
  function NarrativeSummary(p: PropertyData, flags: seq<string>, dscr: real): (s: Summary)
    ensures 1 <= |s.strengths| <= Shown && 1 <= |s.risks| <= Shown
    ensures StrengthDscr in s.strengths <==> StrongDscr(dscr)
    ensures StrengthDownside in s.strengths <==> DownsideBuffer(p)
    ensures StrengthLiquidity in s.strengths <==> FastExit(p)
    ensures StrengthNeutral in s.strengths <==> !StrongDscr(dscr) && !DownsideBuffer(p) && !FastExit(p)
    ensures |flags| > 0 ==> s.risks <= flags && |s.risks| == if |flags| < Shown then |flags| else Shown
    ensures |flags| == 0 ==> s.risks == [RiskNone]
  {
    var found := Strengths(p, dscr);
    var strengths := if |found| == 0 then [StrengthNeutral] else found;
    var risks := if |flags| == 0 then [RiskNone] else flags;
    Summary(Take(strengths, Shown), Take(risks, Shown))
  }

  lemma StrengthIndices()
    ensures IndexOf(StrengthOrder, StrengthDscr) == 0
    ensures IndexOf(StrengthOrder, StrengthDownside) == 1
    ensures IndexOf(StrengthOrder, StrengthLiquidity) == 2
  {
    assert StrengthOrder[0] == StrengthDscr;
    assert StrengthOrder[1] == StrengthDownside;
    assert StrengthOrder[2] == StrengthLiquidity;
  }

  /** The strength sentences keep the rule order. */
  lemma StrengthsRuleOrder(p: PropertyData, dscr: real)
    ensures FollowsOrder(Strengths(p, dscr), StrengthOrder)
  {
    StrengthIndices();
    var s0: seq<string> := [];
    AppendOptionalFollowsOrder(s0, StrongDscr(dscr), StrengthDscr, StrengthOrder);
    var s1 := s0 + When(StrongDscr(dscr), StrengthDscr);
    AppendOptionalFollowsOrder(s1, DownsideBuffer(p), StrengthDownside, StrengthOrder);
    var s2 := s1 + When(DownsideBuffer(p), StrengthDownside);
    AppendOptionalFollowsOrder(s2, FastExit(p), StrengthLiquidity, StrengthOrder);
    assert s0 + When(StrongDscr(dscr), StrengthDscr) == When(StrongDscr(dscr), StrengthDscr);
  }

  /** The report lists either the neutral sentence alone or the holding strengths in
      rule order. */
  lemma StrengthsFollowOrder(p: PropertyData, flags: seq<string>, dscr: real)
    ensures var s := NarrativeSummary(p, flags, dscr).strengths;
      s == [StrengthNeutral] || FollowsOrder(s, StrengthOrder)
  {
    StrengthsRuleOrder(p, dscr);
  }
}

=== FILE: pipeline.dfy ===
/** One underwriting run: the stages composed in the order the analysis applies them
    (app.py:505-515). */
module Pipeline {
  import opened Arith
  import opened Seqs
  import opened Property
  import opened Metrics
  import opened Scoring
  import opened Flags
  import opened Gate
  import opened Narrative

  /** Everything one run produces. */
  datatype Analysis = Analysis(
    killed: bool,
    metrics: Table,
    dscr: real,
    weights: Table,
    flags: seq<string>,
    penalty: real,
    baseScore: real,
    finalScore: real,
    grade: Letter,
    verdict: Verdict,
    summary: Summary)

  /** The full run. The kill switch forces F/PASS; the penalty lies in [0, 0.35] and only
      ever lowers the score, by at most 35%; the final score is never negative, and with a
      non-negative day count the base score is at most 100. */
  function Underwrite(p: PropertyData, rateEnv: string): (a: Analysis)
    ensures a.killed <==> StressedNet(p) < DebtService(p) || p.rentRegulationRisk || p.daysOnMarket > 180
    ensures a.killed ==> a.grade == F && a.verdict == Pass
    ensures a.dscr == StressedDscr(p)
    ensures ValidWeights(a.weights)
    ensures 0.0 <= a.penalty <= PenaltyCap
    ensures 0.0 <= a.finalScore <= a.baseScore
    ensures 0.65 * a.baseScore <= a.finalScore
    ensures p.daysOnMarket >= 0 ==> a.baseScore <= 100.0
    ensures a.flags == [] ==> a.finalScore == a.baseScore
    ensures a.flags == AiFlags(p) && a.penalty == AiPenalty(a.flags)
    ensures a.finalScore == FinalScore(a.baseScore, a.penalty)
    ensures (a.grade, a.verdict) == Grade(a.finalScore, a.killed)
    ensures !a.killed ==> (a.grade == A <==> a.finalScore >= 90.0)
    ensures a.metrics == CalculateMetrics(p).scores && a.weights == GetWeights(rateEnv)
    ensures a.baseScore == Score(a.metrics, a.weights)
    ensures a.summary == NarrativeSummary(p, a.flags, a.dscr)
    ensures a.baseScore > 0.0 && a.penalty > 0.0 ==> a.finalScore < a.baseScore
  {
    var killed := KillSwitch(p);
    var m := CalculateMetrics(p);
    var weights := GetWeights(rateEnv);
    var flags := AiFlags(p);
    var penalty := AiPenalty(flags);
    MetricsInRange(p);
    var base := Score(m.scores, weights);
    var final := FinalScore(base, penalty);
    var g := Grade(final, killed);
    Analysis(killed, m.scores, m.dscr, weights, flags, penalty, base, final, g.0, g.1,
             NarrativeSummary(p, flags, m.dscr))
  }

  /** Any rule that fires costs a positive penalty, so a flagged property with a positive
      base score always ends below it. */
  lemma FlagsLowerScore(p: PropertyData, rateEnv: string)
    requires OverstatedFires(p) || VacancyFires(p) || RegulatoryFires(p) || ExpensesFires(p)
    ensures var a := Underwrite(p, rateEnv);
      a.penalty >= 0.05 && (a.baseScore > 0.0 ==> a.finalScore < a.baseScore)
  {
    PenaltyOfAiFlags(p);
  }

  /** The letter is read off the penalised score, so the flags can only lower it: grading
      the base score instead would never give a worse letter. */
  lemma PenaltyNeverRaisesGrade(p: PropertyData, rateEnv: string)
    ensures var a := Underwrite(p, rateEnv);
      Rank(a.grade) <= Rank(Grade(a.baseScore, a.killed).0)
  {
    var a := Underwrite(p, rateEnv);
    GradeMonotone(a.finalScore, a.baseScore, a.killed);
  }

  /** The kill switch and the metrics read the same stressed DSCR. */
  lemma KillSwitchAgreesWithMetrics(p: PropertyData)
    ensures KillSwitch(p) <==>
      CalculateMetrics(p).dscr < 1.0 || p.rentRegulationRisk || p.daysOnMarket > 180
  {
    var m := CalculateMetrics(p);
    RatioBelowOne(StressedNet(p), DebtService(p), m.dscr);
  }

  /** Rent-regulation risk is counted three times: it kills the property, it costs at
      least 0.20 of penalty, and its flag is always among the risks shown. */
  lemma RegulatedPropertyFails(p: PropertyData, rateEnv: string)
    requires p.rentRegulationRisk
    ensures Underwrite(p, rateEnv).grade == F && Underwrite(p, rateEnv).verdict == Pass
    ensures Underwrite(p, rateEnv).penalty >= 0.20
    ensures FlagRegulatory in Underwrite(p, rateEnv).summary.risks
  {
    PenaltyOfAiFlags(p);
    ShownFlags(p);
  }

  /** The report shows every flag except, when all four rules fire, the expenses flag:
      the rule order decides what the three-item cap drops. */
  lemma ShownFlags(p: PropertyData)
    ensures var risks := NarrativeSummary(p, AiFlags(p), StressedDscr(p)).risks;
      && (forall f :: f in AiFlags(p) && f != FlagExpenses ==> f in risks)
      && (FlagExpenses in risks <==>
            ExpensesFires(p) && !(OverstatedFires(p) && VacancyFires(p) && RegulatoryFires(p)))
  {
    EarlyFlagsShown(p);
    ExpensesFlagShown(p);
  }

  lemma EarlyFlagsShown(p: PropertyData)
    ensures var risks := NarrativeSummary(p, AiFlags(p), StressedDscr(p)).risks;
      forall f :: f in AiFlags(p) && f != FlagExpenses ==> f in risks
  {
    var flags := AiFlags(p);
    var risks := NarrativeSummary(p, flags, StressedDscr(p)).risks;
    forall f | f in flags && f != FlagExpenses
      ensures f in risks
    {
      var i :| 0 <= i < |flags| && flags[i] == f;
      EarlyFlagPosition(p, i);
      assert risks[i] == f;
    }
  }

  lemma ExpensesFlagShown(p: PropertyData)
    ensures var risks := NarrativeSummary(p, AiFlags(p), StressedDscr(p)).risks;
      FlagExpenses in risks <==>
        ExpensesFires(p) && !(OverstatedFires(p) && VacancyFires(p) && RegulatoryFires(p))
  {
    if !ExpensesFires(p) {
      UnflaggedExpensesHidden(p);
    } else if OverstatedFires(p) && VacancyFires(p) && RegulatoryFires(p) {
      FourthFlagCut(p);
    } else {
      FewFlagsAllShown(p);
    }
  }

  lemma UnflaggedExpensesHidden(p: PropertyData)
    requires !ExpensesFires(p)
    ensures FlagExpenses !in NarrativeSummary(p, AiFlags(p), StressedDscr(p)).risks
  {
    var flags := AiFlags(p);
    var risks := NarrativeSummary(p, flags, StressedDscr(p)).risks;
    if |flags| == 0 {
      assert risks == [RiskNone];
    } else {
      assert risks <= flags;
    }
  }

  /** With all four rules firing, the expenses flag is the one the cap drops. */
  lemma FourthFlagCut(p: PropertyData)
    requires OverstatedFires(p) && VacancyFires(p) && RegulatoryFires(p)
    ensures FlagExpenses !in NarrativeSummary(p, AiFlags(p), StressedDscr(p)).risks
  {
    var e := When(ExpensesFires(p), FlagExpenses);
    assert AiFlags(p) == [FlagOverstated, FlagVacancy, FlagRegulatory] + e;
    EarlyThreeShown(p, e, StressedDscr(p));
  }

  /** When the first three flags lead the list, they are exactly the risks shown. */
  lemma EarlyThreeShown(p: PropertyData, e: seq<string>, dscr: real)
    ensures FlagExpenses !in
      NarrativeSummary(p, [FlagOverstated, FlagVacancy, FlagRegulatory] + e, dscr).risks
  {
    var flags := [FlagOverstated, FlagVacancy, FlagRegulatory] + e;
    var risks := NarrativeSummary(p, flags, dscr).risks;
    assert |risks| == 3 && risks <= flags;
    assert risks == [FlagOverstated, FlagVacancy, FlagRegulatory];
    assert FlagExpenses[0] == 'E';
    assert FlagOverstated[0] == 'O' && FlagVacancy[0] == 'V' && FlagRegulatory[0] == 'R';
  }

  /** Three flags or fewer are all shown. */
  lemma FewFlagsAllShown(p: PropertyData)
    requires !(OverstatedFires(p) && VacancyFires(p) && RegulatoryFires(p))
    ensures NarrativeSummary(p, AiFlags(p), StressedDscr(p)).risks == AiFlags(p) || AiFlags(p) == []
  {
    var flags := AiFlags(p);
    assert |flags| <= 3;
  }

  /** A flag other than the expenses flag sits among the first three. */
  lemma EarlyFlagPosition(p: PropertyData, i: nat)
    requires i < |AiFlags(p)| && AiFlags(p)[i] != FlagExpenses
    ensures i < 3
  {
    var flags := AiFlags(p);
    AiFlagsFollowOrder(p);
    FlagIndices();
    FollowsOrderPosition(flags, FlagOrder, i);
    assert flags[i] in FlagOrder;
    assert IndexOf(FlagOrder, flags[i]) != 3;
  }

  /** The deal the input form starts with: stressed income 2400 - 1100 = 1300 against a
      1850 payment gives a DSCR near 0.70, so the deal is killed. */
  const DefaultDeal: PropertyData := PropertyData(
    "Unknown address", 400000.0, 3000.0, 1100.0, 1850.0, 0.08, 450000.0, 45, 0.74, false)

  lemma DefaultDealIsKilled()
    ensures Underwrite(DefaultDeal, "HIGH").killed
    ensures Underwrite(DefaultDeal, "HIGH").grade == F
    ensures Underwrite(DefaultDeal, "HIGH").verdict == Pass
  {
  }

  /** A covered deal (stressed DSCR 1.9) whose base score of about 93.9 would earn an A,
      but whose yield and expense flags cost 0.11 and bring it down to a B. */
  const FlaggedDeal: PropertyData := PropertyData(
    "12 Oak Street", 200000.0, 3000.0, 500.0, 1000.0, 0.08, 260000.0, 20, 0.80, false)

  lemma FlaggedDealEarnsB()
    ensures Underwrite(FlaggedDeal, "high").baseScore >= 90.0
    ensures Underwrite(FlaggedDeal, "high").penalty == 0.11
    ensures Underwrite(FlaggedDeal, "high").finalScore == 0.89 * Underwrite(FlaggedDeal, "high").baseScore
    ensures Underwrite(FlaggedDeal, "high").grade == B
    ensures Underwrite(FlaggedDeal, "high").verdict == Buy
  {
    var a := Underwrite(FlaggedDeal, "high");
    FlaggedDealBase();
    FlaggedDealPenalty();
    assert !KillSwitch(FlaggedDeal);
    assert a.finalScore == FinalScore(a.baseScore, 0.11);
    assert Discounted(a.baseScore, 0.11) + a.baseScore * 0.11 == a.baseScore;
  }

  lemma FlaggedDealBase()
    ensures Score(CalculateMetrics(FlaggedDeal).scores, GetWeights("high")) >= 90.0
  {
    var m, w := CalculateMetrics(FlaggedDeal).scores, GetWeights("high");
    HighRegimeSpellings("high");
    assert w == HighWeights;
    HighWeightsValid();
    FlaggedDealMetrics();
    HighScoreOf(m, w);
  }

  lemma FlaggedDealMetrics()
    ensures var m := CalculateMetrics(FlaggedDeal).scores;
      && m[Cashflow] == 1.0 && m[Downside] == 1.0 && m[Yield] == 1.0
      && m[Location] == 0.80 && m[Liquidity] >= 0.88
  {
  }

  /** Sub-scores this strong score at least 90 under the high-rate weights. */
  lemma HighScoreOf(m: Table, w: Table)
    requires Complete(m) && Complete(w) && w == HighWeights
    requires m[Cashflow] == 1.0 && m[Downside] == 1.0 && m[Yield] == 1.0
    requires m[Location] == 0.80 && m[Liquidity] >= 0.88
    requires m[Optionality] == 0.60 && m[AiRisk] == 1.0
    ensures Score(m, w) >= 90.0
  {
    ScoreOfComplete(m, w);
    assert m[Liquidity] * w[Liquidity] == m[Liquidity] * 0.10;
  }

  lemma FlaggedDealPenalty()
    ensures AiPenalty(AiFlags(FlaggedDeal)) == 0.11
  {
    PenaltyOfAiFlags(FlaggedDeal);
  }
}

=== FILE: property.dfy ===
/** The property record and the stressed figures derived from it (app.py:75-86, 212-215, 224-227). */
module Property {
  import opened Arith

  /** One analysed property. Money and ratios are reals; the loan payment is an input. */
  datatype PropertyData = PropertyData(
    address: string,
    price: real,
    monthlyRent: real,
    monthlyExpenses: real,
    loanPayment: real,
    vacancyRate: real,
    replacementCost: real,
    daysOnMarket: int,
    jobDiversityIndex: real,
    rentRegulationRisk: bool)

  /** The stress scenario keeps 80% of the rent; no vacancy term enters it. */
  const RentStress: real := 0.80

  /** Monthly income left under the rent stress. */
  function StressedNet(p: PropertyData): real {
    p.monthlyRent * RentStress - p.monthlyExpenses
  }

  /** The DSCR denominator: the loan payment, floored at 1 to guard the division. */
  function DebtService(p: PropertyData): (d: real)
    ensures d >= 1.0 && d >= p.loanPayment
    ensures p.loanPayment >= 1.0 ==> d == p.loanPayment
  {
    Max(p.loanPayment, 1.0)
  }

  /** Stressed debt-service-coverage ratio, computed the same way by the kill switch
      and by the metrics. */
  function StressedDscr(p: PropertyData): (dscr: real)
    ensures dscr * DebtService(p) == StressedNet(p)
  {
    StressedNet(p) / DebtService(p)
  }

  /** Annual rent over the price, the price floored at 1. */
  function GrossYield(p: PropertyData): (y: real)
    ensures y * Max(p.price, 1.0) == p.monthlyRent * 12.0
  {
    (p.monthlyRent * 12.0) / Max(p.price, 1.0)
  }

  /** Replacement cost over the floored price. */
  function CostRatio(p: PropertyData): (c: real)
    ensures c * Max(p.price, 1.0) == p.replacementCost
  {
    p.replacementCost / Max(p.price, 1.0)
  }

  /** The stressed DSCR is below 1 exactly when stressed income falls short of the
      floored debt service. */
  lemma DscrBelowOne(p: PropertyData)
    ensures StressedDscr(p) < 1.0 <==> StressedNet(p) < DebtService(p)
  {
    RatioBelowOne(StressedNet(p), DebtService(p), StressedDscr(p));
  }

  lemma RatioBelowOne(n: real, d: real, r: real)
    requires d >= 1.0 && r * d == n
    ensures r < 1.0 <==> n < d
  {
    if r < 1.0 {
      assert (1.0 - r) * d > 0.0;
    } else {
      assert (r - 1.0) * d >= 0.0;
    }
  }
}

=== FILE: scoring.dfy ===
/** Regime weights, the weighted score and the penalised final score
    (app.py:207-210, 266-267, 511-512). */
module Scoring {
  import opened Arith
  import opened Metrics
  import opened Property

  const HighWeights: Table := map[
    Cashflow := 0.30, Downside := 0.25, Location := 0.15, Yield := 0.10,
    Liquidity := 0.10, Optionality := 0.05, AiRisk := 0.05]

  const NormalWeights: Table := map[
    Cashflow := 0.25, Downside := 0.20, Location := 0.15, Yield := 0.15,
    Liquidity := 0.10, Optionality := 0.10, AiRisk := 0.05]

  /** Upper-casing of one character, for the ASCII letters only. */
  function UpperChar(c: char): char {
    if 'a' <= c <= 'z' then (c as int - 32) as char else c
  }

  function ToUpper(s: string): (u: string)
    ensures |u| == |s|
    ensures forall i :: 0 <= i < |s| ==> u[i] == UpperChar(s[i])
  {
    seq(|s|, i requires 0 <= i < |s| => UpperChar(s[i]))
  }

  /** Sum of the weights listed under `keys`. */
  function Total(keys: seq<MetricKey>, w: Table): real {
    if |keys| == 0 then 0.0
    else WeightOf(keys[0], w) + Total(keys[1..], w)
  }

  function TotalWeight(w: Table): real {
    Total(MetricOrder, w)
  }

  /** Weights are non-negative, cover the seven metrics and add up to one. */
  predicate ValidWeights(w: Table) {
    && Complete(w)
    && (forall k :: w[k] >= 0.0)
    && TotalWeight(w) == 1.0
  }

  /** The weight table for a rate environment: "HIGH" in any letter case selects the
      high-rate table, anything else the normal one. */
  function GetWeights(rateEnv: string): (w: Table)
    ensures ValidWeights(w)
    ensures w == HighWeights || w == NormalWeights
  {
    HighWeightsValid();
    NormalWeightsValid();
    if ToUpper(rateEnv) == "HIGH" then HighWeights else NormalWeights
  }

  lemma HighWeightsValid()
    ensures ValidWeights(HighWeights)
  {
    AllKeysListed(HighWeights);
    TotalOfComplete(HighWeights);
  }

  lemma NormalWeightsValid()
    ensures ValidWeights(NormalWeights)
  {
    AllKeysListed(NormalWeights);
    TotalOfComplete(NormalWeights);
  }

  /** The total weight of a complete table, written out term by term. */
  lemma TotalOfComplete(w: Table)
    requires Complete(w)
    ensures TotalWeight(w) == w[Cashflow] + w[Downside] + w[Location] + w[Yield]
      + w[Liquidity] + w[Optionality] + w[AiRisk]
  {
    var s1 := [Downside, Location, Yield, Liquidity, Optionality, AiRisk];
    var s2 := [Location, Yield, Liquidity, Optionality, AiRisk];
    var s3 := [Yield, Liquidity, Optionality, AiRisk];
    var s4 := [Liquidity, Optionality, AiRisk];
    var s5 := [Optionality, AiRisk];
    var s6 := [AiRisk];
    assert MetricOrder[1..] == s1 && s1[1..] == s2 && s2[1..] == s3;
    assert s3[1..] == s4 && s4[1..] == s5 && s5[1..] == s6 && s6[1..] == [];
    assert Total(s6, w) == w[AiRisk];
    assert Total(s5, w) == w[Optionality] + w[AiRisk];
    assert Total(s4, w) == w[Liquidity] + Total(s5, w);
    assert Total(s3, w) == w[Yield] + Total(s4, w);
    assert Total(s2, w) == w[Location] + Total(s3, w);
    assert Total(s1, w) == w[Downside] + Total(s2, w);
  }

  /** The base score of complete tables, written out term by term. */
  lemma ScoreOfComplete(m: Table, w: Table)
    requires Complete(m) && Complete(w)
    ensures Score(m, w) == 100.0 * (m[Cashflow] * w[Cashflow] + m[Downside] * w[Downside]
      + m[Location] * w[Location] + m[Yield] * w[Yield] + m[Liquidity] * w[Liquidity]
      + m[Optionality] * w[Optionality] + m[AiRisk] * w[AiRisk])
  {
    var s1 := [Downside, Location, Yield, Liquidity, Optionality, AiRisk];
    var s2 := [Location, Yield, Liquidity, Optionality, AiRisk];
    var s3 := [Yield, Liquidity, Optionality, AiRisk];
    var s4 := [Liquidity, Optionality, AiRisk];
    var s5 := [Optionality, AiRisk];
    var s6 := [AiRisk];
    assert MetricOrder[1..] == s1 && s1[1..] == s2 && s2[1..] == s3;
    assert s3[1..] == s4 && s4[1..] == s5 && s5[1..] == s6 && s6[1..] == [];
    assert WeightedSum(s6, m, w) == m[AiRisk] * w[AiRisk];
    assert WeightedSum(s5, m, w) == m[Optionality] * w[Optionality] + WeightedSum(s6, m, w);
    assert WeightedSum(s4, m, w) == m[Liquidity] * w[Liquidity] + WeightedSum(s5, m, w);
    assert WeightedSum(s3, m, w) == m[Yield] * w[Yield] + WeightedSum(s4, m, w);
    assert WeightedSum(s2, m, w) == m[Location] * w[Location] + WeightedSum(s3, m, w);
    assert WeightedSum(s1, m, w) == m[Downside] * w[Downside] + WeightedSum(s2, m, w);
  }

  /** Exactly the sixteen letter-case spellings of "high" select the high-rate table. */
  lemma HighRegimeSpellings(rateEnv: string)
    ensures GetWeights(rateEnv) == HighWeights <==>
      && |rateEnv| == 4
      && (rateEnv[0] == 'h' || rateEnv[0] == 'H')
      && (rateEnv[1] == 'i' || rateEnv[1] == 'I')
      && (rateEnv[2] == 'g' || rateEnv[2] == 'G')
      && (rateEnv[3] == 'h' || rateEnv[3] == 'H')
  {
    assert HighWeights[Cashflow] != NormalWeights[Cashflow];
    var u := ToUpper(rateEnv);
    if |rateEnv| == 4 {
      if u == "HIGH" {
        assert u[0] == 'H' && u[1] == 'I' && u[2] == 'G' && u[3] == 'H';
      }
    } else {
      assert |u| != |"HIGH"|;
    }
  }

  /** The sum, over the listed keys that carry a sub-score, of sub-score times weight;
      keys without a sub-score add nothing. */
  function WeightedSum(keys: seq<MetricKey>, metrics: Table, weights: Table): real
    requires forall k :: k in metrics ==> k in weights
  {
    if |keys| == 0 then 0.0
    else Term(keys[0], metrics, weights) + WeightedSum(keys[1..], metrics, weights)
  }

  /** What one key adds to the weighted sum: nothing when it is not a metric. */
  function Term(k: MetricKey, metrics: Table, weights: Table): real
    requires forall k :: k in metrics ==> k in weights
  {
    if k in metrics then Scaled(metrics[k], weights[k]) else 0.0
  }

  /** A sub-score times its weight: a sub-score in [0,1] takes at most its full weight. */
  function Scaled(m: real, w: real): (r: real)
    ensures m >= 0.0 && w >= 0.0 ==> r >= 0.0
    ensures InUnit(m) && w >= 0.0 ==> r <= w
  {
    ScaledBounds(m, w);
    m * w
  }

  lemma ScaledBounds(m: real, w: real)
    ensures m >= 0.0 && w >= 0.0 ==> m * w >= 0.0
    ensures InUnit(m) && w >= 0.0 ==> m * w <= w
  {
    if m >= 0.0 && w >= 0.0 {
      MulNonNegative(m, w);
      if m <= 1.0 {
        MulNonNegative(1.0 - m, w);
      }
    }
  }

  /** What one key adds to the total weight. */
  function WeightOf(k: MetricKey, w: Table): real {
    if k in w then w[k] else 0.0
  }

  /** Every sub-score lies in [0,1]. */
  predicate UnitScores(metrics: Table) {
    forall k :: k in metrics ==> InUnit(metrics[k])
  }

  predicate NonNegativeScores(metrics: Table) {
    forall k :: k in metrics ==> metrics[k] >= 0.0
  }

  predicate NonNegativeWeights(weights: Table) {
    forall k :: k in weights ==> weights[k] >= 0.0
  }

  /** The base score: the weighted sum over the metrics, scaled by 100. With sub-scores in
      [0,1] and non-negative weights it lies between 0 and 100 times the total weight. */
  function Score(metrics: Table, weights: Table): (s: real)
    requires forall k :: k in metrics ==> k in weights
    ensures UnitScores(metrics) && NonNegativeWeights(weights) ==> 0.0 <= s <= 100.0 * TotalWeight(weights)
    ensures NonNegativeScores(metrics) && NonNegativeWeights(weights) ==> s >= 0.0
  {
    WeightedSumRange(metrics, weights);
    WeightedSum(MetricOrder, metrics, weights) * 100.0
  }

  lemma WeightedSumRange(metrics: Table, weights: Table)
    requires forall k :: k in metrics ==> k in weights
    ensures NonNegativeScores(metrics) && NonNegativeWeights(weights) ==> WeightedSum(MetricOrder, metrics, weights) >= 0.0
    ensures UnitScores(metrics) && NonNegativeWeights(weights) ==> WeightedSum(MetricOrder, metrics, weights) <= TotalWeight(weights)
  {
    if NonNegativeScores(metrics) && NonNegativeWeights(weights) {
      WeightedSumNonNegative(MetricOrder, metrics, weights);
    }
    if UnitScores(metrics) && NonNegativeWeights(weights) {
      WeightedSumBounds(MetricOrder, metrics, weights);
    }
  }

  lemma {:induction false} WeightedSumNonNegative(keys: seq<MetricKey>, metrics: Table, weights: Table)
    requires forall k :: k in metrics ==> k in weights
    requires NonNegativeScores(metrics) && NonNegativeWeights(weights)
    ensures WeightedSum(keys, metrics, weights) >= 0.0
    decreases |keys|
  {
    if |keys| > 0 {
      WeightedSumNonNegative(keys[1..], metrics, weights);
      if keys[0] in metrics {
        assert metrics[keys[0]] >= 0.0 && weights[keys[0]] >= 0.0;
      }
    }
  }

  lemma {:induction false} WeightedSumBounds(keys: seq<MetricKey>, metrics: Table, weights: Table)
    requires forall k :: k in metrics ==> k in weights
    requires UnitScores(metrics) && NonNegativeWeights(weights)
    ensures 0.0 <= WeightedSum(keys, metrics, weights) <= Total(keys, weights)
    decreases |keys|
  {
    if |keys| > 0 {
      WeightedSumBounds(keys[1..], metrics, weights);
      TermBounds(keys[0], metrics, weights);
    }
  }

  lemma TermBounds(k: MetricKey, metrics: Table, weights: Table)
    requires forall k :: k in metrics ==> k in weights
    requires UnitScores(metrics) && NonNegativeWeights(weights)
    ensures 0.0 <= Term(k, metrics, weights) <= WeightOf(k, weights)
  {
    if k in metrics {
      assert InUnit(metrics[k]) && weights[k] >= 0.0;
    } else if k in weights {
      assert WeightOf(k, weights) == weights[k] >= 0.0;
    }
  }

  lemma MulNonNegative(a: real, b: real)
    requires a >= 0.0 && b >= 0.0
    ensures a * b >= 0.0
  {
  }

  lemma MulPositive(a: real, b: real)
    requires a > 0.0 && b > 0.0
    ensures a * b > 0.0
  {
  }

  /** The penalised score, floored at zero: never negative, and a penalty in [0, 0.35]
      keeps at least 65% of a non-negative base score and never raises it; any positive
      penalty strictly lowers a positive base score. */
  function FinalScore(base: real, penalty: real): (s: real)
    ensures s >= 0.0
    ensures base >= 0.0 && penalty >= 0.0 ==> s <= base
    ensures base >= 0.0 && 0.0 <= penalty <= 0.35 ==> 0.65 * base <= s
    ensures base > 0.0 && penalty > 0.0 ==> s < base
    ensures penalty == 0.0 ==> s == Max(base, 0.0)
    ensures base >= 0.0 && penalty <= 1.0 ==> s + base * penalty == base
  {
    Max(Discounted(base, penalty), 0.0)
  }

  /** The base score scaled by the share the penalty leaves: exactly the penalty's share
      of the base is removed. A non-negative penalty never raises a non-negative base, a
      positive one lowers a positive base, and one of at most 0.35 keeps 65% of it. */
  function Discounted(base: real, penalty: real): (d: real)
    ensures base >= 0.0 && penalty >= 0.0 ==> d <= base
    ensures base > 0.0 && penalty > 0.0 ==> d < base
    ensures base >= 0.0 && penalty <= 0.35 ==> 0.65 * base <= d
    ensures penalty == 0.0 ==> d == base
    ensures d + base * penalty == base
  {
    DiscountBounds(base, penalty);
    base * (1.0 - penalty)
  }

  lemma DiscountBounds(base: real, penalty: real)
    ensures base >= 0.0 && penalty >= 0.0 ==> base * (1.0 - penalty) <= base
    ensures base > 0.0 && penalty > 0.0 ==> base * (1.0 - penalty) < base
    ensures base >= 0.0 && penalty <= 0.35 ==> 0.65 * base <= base * (1.0 - penalty)
    ensures base * (1.0 - penalty) + base * penalty == base
  {
    if base >= 0.0 && penalty >= 0.0 {
      MulNonNegative(base, penalty);
    }
    if base > 0.0 && penalty > 0.0 {
      MulPositive(base, penalty);
    }
    if base >= 0.0 && penalty <= 0.35 {
      MulNonNegative(base, 0.35 - penalty);
    }
  }

  /** A larger penalty never gives a higher final score. */
  lemma FinalScoreAntitone(base: real, p1: real, p2: real)
    requires base >= 0.0 && p1 <= p2
    ensures FinalScore(base, p2) <= FinalScore(base, p1)
  {
    var d1, d2 := Discounted(base, p1), Discounted(base, p2);
    DiscountGap(base, p1, p2, d1, d2);
  }

  /** Up to a penalty of 1, raising the penalty lowers the final score by exactly the base
      times the rise. */
  lemma FinalScoreGap(base: real, p1: real, p2: real)
    requires base >= 0.0 && p1 <= p2 <= 1.0
    ensures FinalScore(base, p1) - FinalScore(base, p2) == base * (p2 - p1)
  {
    var d1, d2 := Discounted(base, p1), Discounted(base, p2);
    DiscountGap(base, p1, p2, d1, d2);
    MulNonNegative(base, 1.0 - p2);
  }

  /** Two discounts of the same base differ by the base times the gap in penalty. */
  lemma DiscountGap(base: real, p1: real, p2: real, d1: real, d2: real)
    requires base >= 0.0 && p1 <= p2
    requires d1 == base * (1.0 - p1) && d2 == base * (1.0 - p2)
    ensures d2 <= d1
    ensures d1 - d2 == base * (p2 - p1)
  {
    MulNonNegative(base, p2 - p1);
    assert d1 - d2 == base * (p2 - p1);
  }

  /** The computed sub-scores are non-negative, and within [0,1] when the day count is
      non-negative. */
  lemma MetricsInRange(p: PropertyData)
    ensures NonNegativeScores(CalculateMetrics(p).scores)
    ensures p.daysOnMarket >= 0 ==> UnitScores(CalculateMetrics(p).scores)
  {
    var m := CalculateMetrics(p).scores;
    forall k | k in m
      ensures m[k] >= 0.0 && (p.daysOnMarket >= 0 ==> InUnit(m[k]))
    {
      if k != Liquidity {
        assert InUnit(m[k]);
      }
    }
  }
}

=== FILE: seqs.dfy ===
/** Position of an element in a reference list, and "keeps the reference order". */
module Seqs {

  /** A one-element list when `present`, else the empty list: one rule's contribution. */
  function When<T>(present: bool, x: T): seq<T> {
    if present then [x] else []
  }

  /** The first `n` entries of `xs`, or all of them when there are fewer. */
  function Take<T>(xs: seq<T>, n: nat): (ys: seq<T>)
    ensures |ys| == if |xs| < n then |xs| else n
    ensures ys <= xs
    ensures |xs| <= n ==> ys == xs
  {
    if |xs| < n then xs else xs[..n]
  }

  /** Index of the first occurrence of `x` in `s`. */
  function IndexOf<T(==)>(s: seq<T>, x: T): (i: nat)
    requires x in s
    ensures i < |s| && s[i] == x
    ensures forall j :: 0 <= j < i ==> s[j] != x
  {
    if s[0] == x then 0 else 1 + IndexOf(s[1..], x)
  }

  /** Every element of `xs` is listed in `order`, and `xs` lists them in strictly
      increasing reference position (hence without repetition). */
  predicate FollowsOrder<T(==)>(xs: seq<T>, order: seq<T>)
  {
    && (forall i :: 0 <= i < |xs| ==> xs[i] in order)
    && (forall i, j :: 0 <= i < j < |xs| ==> IndexOf(order, xs[i]) < IndexOf(order, xs[j]))
  }

  /** Appending an element that comes later in the reference order than everything
      already present keeps the order. */
  lemma AppendFollowsOrder<T>(xs: seq<T>, y: T, order: seq<T>)
    requires FollowsOrder(xs, order)
    requires y in order
    requires forall i :: 0 <= i < |xs| ==> IndexOf(order, xs[i]) < IndexOf(order, y)
    ensures FollowsOrder(xs + [y], order)
  {
    var ys := xs + [y];
    forall i, j | 0 <= i < j < |ys|
      ensures IndexOf(order, ys[i]) < IndexOf(order, ys[j])
    {
      assert ys[i] == xs[i];
      if j < |xs| {
        assert ys[j] == xs[j];
      }
    }
  }

  /** Appending `y` or nothing, when `y` comes after everything present, keeps the
      order and leaves nothing past `y`. */
  lemma AppendOptionalFollowsOrder<T>(xs: seq<T>, present: bool, y: T, order: seq<T>)
    requires FollowsOrder(xs, order)
    requires y in order
    requires forall i :: 0 <= i < |xs| ==> IndexOf(order, xs[i]) < IndexOf(order, y)
    ensures FollowsOrder(xs + When(present, y), order)
    ensures var ys := xs + When(present, y);
      forall i :: 0 <= i < |ys| ==> IndexOf(order, ys[i]) <= IndexOf(order, y)
  {
    if present {
      AppendFollowsOrder(xs, y, order);
    } else {
      assert xs + [] == xs;
    }
  }

  /** In a list kept in reference order, the element at position `i` sits at reference
      position `i` or later. */
  lemma {:induction false} FollowsOrderPosition<T>(xs: seq<T>, order: seq<T>, i: nat)
    requires FollowsOrder(xs, order) && i < |xs|
    ensures IndexOf(order, xs[i]) >= i
  {
    if i > 0 {
      FollowsOrderPosition(xs, order, i - 1);
    }
  }

  /** A list in reference order never repeats an element. */
  lemma FollowsOrderDistinct<T>(xs: seq<T>, order: seq<T>)
    requires FollowsOrder(xs, order)
    ensures forall i, j :: 0 <= i < j < |xs| ==> xs[i] != xs[j]
  {
  }
}

=== FILE: wrappers.dfy ===
/** The optional value returned where the source returns `None`. */
module Wrappers {

  datatype Option<+T> = None | Some(value: T)
}
